=== FILE: README.md ===
# Moons of Jupiter: a Dafny model of `solve_12.py`

`solve_12.py` simulates a handful of moons that pull on each other with a
simplified integer gravity. Every step, each pair of moons pulls the two
velocities one unit towards each other on every axis where their positions
differ. Then every moon moves by its velocity. Part 1 reports the total
energy after 1000 steps. Part 2 watches each axis separately until its
(position, velocity) snapshot repeats. It then reports the least common
multiple of the three periods.

The model is built from immutable values and pure functions:

- `vectors.dfy` (`Vectors`): `Vector3` as `Vec3`, with `+`, `-` and `sign`.
- `moons.dfy` (`Moons`): `Moon`, with `move` and the three energies.
- `systems.dfy` (`Systems`): `System`, `apply_gravity` (the pairs in
  `itertools.combinations` order, folded left to right), `tick`, `energy` and
  `state`. It also has a closed form of gravity: each moon's velocity plus the
  sum of the signs of its offsets to every other moon.
- `axes.dfy` (`Axes`): one axis evolves on its own. The snapshot of an axis
  after one step depends only on that axis's snapshot before it, and the step
  is injective.
- `orbits.dfy` (`Orbits`): generic facts about iterating an injective step
  function. The first repeated snapshot is a return to the start, and the
  orbit comes back exactly at the multiples of that step count.
- `periods.dfy` (`Periods`): the `while True` loop of part 2, with its
  `history` and `period` variables, and what they mean after every check.
- `numbers.dfy` (`Numbers`): `gcd`, `lcm` and `lcms` over exact integers.
- `text.dfy` (`Text`): `Vector3.__str__`, `parse_vec` and the Python string
  operations it uses (`replace`, `split`, `int`).
- `drivers.dfy` (`Drivers`): parts 1 and 2 and the script as a whole.
- `wrappers.dfy` (`Wrappers`): the `Option` type used for parse errors and
  for a search that gives up.

The script never ends part 2 when some axis does not repeat. So the model's
search takes a `fuel` bound and answers `None` when the bound runs out. The
proofs show what `None` means: some axis had no repeat within the bound.

The script builds part 2's `System` from the same `Moon` objects that part 1
has already moved 1000 steps. Part 2 therefore starts from the moons as part 1
left them, with the step counter back at 0. It does not start from a fresh
copy of the parsed moons, although the comment "reset system" suggests that
was the intent. `Drivers.Program` follows the code. `Drivers.ProgramAnswers` and `Periods.SearchFromLaterStart` prove
that this does not change the answer. The step is injective, so every axis
has the same period from any point of its orbit.

## Model

| member | source | states |
|---|---|---|
| Vectors.CompExtensional | solve_12.py:12-13 | two vectors whose x, y and z components agree are the same vector |
| Vectors.AddSubRoundTrip | solve_12.py:15-19 | subtracting what was added gives back the original vector: (a + b) - b == a |
| Vectors.Sub | solve_12.py:18-19 | the difference is what must be added to b to reach a: (a - b) + b == a |
| Vectors.Add | solve_12.py:15-16 | `Vector3.__add__`; no contract of its own: AddComp states it adds componentwise and AddSubRoundTrip that Sub undoes it |
| Vectors.Sign | solve_12.py:29-30 | `Vector3.sign`; no contract of its own: SignComponents states what each component is |
| Vectors.SignComponents | solve_12.py:29-30 | every component of sign is -1, 0 or 1, and it is -1, 0 or 1 exactly when the component is negative, zero or positive |
| Vectors.SignAntisymmetric | solve_12.py:29-30 | the sign of b - a is the negation of the sign of a - b, so both moons of a pair get opposite pulls |
| Vectors.AbsSum | solve_12.py:47-51 | the sum of absolute components is never negative and is zero exactly for the zero vector |
| Moons.Move | solve_12.py:44-45 | moving keeps the velocity, and taking the velocity back off the new position gives the old position |
| Moons.PotentialEnergy | solve_12.py:47-48 | potential energy is never negative and is zero exactly when the moon is at the origin |
| Moons.KineticEnergy | solve_12.py:50-51 | kinetic energy is never negative and is zero exactly when the moon stands still |
| Moons.TotalEnergy | solve_12.py:53-54 | total energy is never negative and is zero exactly when the moon is at the origin or stands still |
| Systems.NewSystem | solve_12.py:58-62 | `System.__init__`: holds the given moons with the step counter at 0; no contract of its own, the constructor is the definition |
| Systems.Combinations | solve_12.py:65 | `combinations(self.moons, 2)` as index pairs; no contract of its own: CombinationsCorrect states which pairs it lists and in what order |
| Systems.CombinationsCorrect | solve_12.py:65 | the pairs visited are exactly the index pairs a < b < n, each once, in lexicographic order, n(n-1)/2 of them |
| Systems.PairStep | solve_12.py:66-68 | one pair's pull keeps the number of moons and every position |
| Systems.ApplyGravity | solve_12.py:64-68 | gravity keeps the number of moons, every position and the step counter |
| Systems.GravityConservesMomentum | solve_12.py:64-68 | gravity does not change the sum of the velocities |
| Systems.GravitySingleMoon | solve_12.py:64-68 | a lone moon feels no gravity |
| Systems.GravityMatchesReference | solve_12.py:64-68 | the pairwise loop gives each moon its old velocity plus the sum, over all moons, of the signs of their positions minus its own |
| Systems.Tick | solve_12.py:72-75 | a tick raises the step counter by one and moves every moon by its own velocity, keeping the number of moons |
| Systems.Advance | solve_12.py:126-127 | one step of the loop raises the step counter by one and keeps the number of moons |
| Systems.Run | solve_12.py:125-127 | t steps raise the step counter by t and keep the number of moons |
| Systems.RunConservesMomentum | solve_12.py:125-127 | no number of steps changes the sum of the velocities |
| Systems.EnergyOf | solve_12.py:79-80 | the energy of a list of moons is never negative and is zero exactly when every moon is at the origin or stands still |
| Systems.Energy | solve_12.py:79-80 | the system's energy is never negative and is zero exactly when every moon is at the origin or stands still |
| Systems.EnergyAtRest | solve_12.py:79-80 | moons that all stand still have zero energy |
| Systems.EnergyAdditive | solve_12.py:79-80 | the energy of two groups of moons together is the sum of their energies |
| Systems.State | solve_12.py:82-87 | `System.state`; no contract of its own: StateDeterminesMoons states that the three snapshots determine the moons, AdvanceAxis that each evolves on its own |
| Systems.StateDeterminesMoons | solve_12.py:82-87 | two systems have the same state exactly when their moons are equal |
| Systems.SumVelOfVelocities | solve_12.py:44-45 | moons with the same velocities have the same velocity sum, whatever their positions |
| Axes.AdvanceAxisMoon | solve_12.py:64-75 | after a step, one moon's position and velocity on an axis are given by that axis's snapshot alone |
| Axes.AdvanceAxis | solve_12.py:64-75 | the axis snapshot after a step is the axis step function applied to the snapshot before it |
| Axes.AxisStepInjective | solve_12.py:64-75 | two axis snapshots with the same successor are equal, so a step can be undone |
| Axes.RunAxis | solve_12.py:125-127 | the axis snapshot after t steps of the whole system is the t-th iterate of the axis step function |
| Orbits.OrbitAdd | solve_12.py:134-146 | iterating s then t steps is iterating s + t steps |
| Orbits.FirstRepeatReturns | solve_12.py:136-142 | with an injective step, the first snapshot already seen is the start itself, after a positive number of steps |
| Orbits.ReturnsExactlyAtMultiples | solve_12.py:136-142 | with an injective step, the orbit is back at the start after t steps exactly when the first repeat p divides t (t mod p == 0) |
| Orbits.FirstRepeatUnique | solve_12.py:136-142 | an orbit has at most one first repeat |
| Orbits.FirstRepeatBound | solve_12.py:134-146 | once a repeat has happened at p, no longer prefix is repeat-free |
| Orbits.DistinctPrefixShift | solve_12.py:131 | with an injective step, an orbit started m steps later has a repeat-free prefix of length n exactly when the original does |
| Orbits.FirstRepeatShift | solve_12.py:131 | with an injective step, an orbit started m steps later has its first repeat at the same step count |
| Orbits.FirstRepeatNotDistinct | solve_12.py:136-142 | p is the first repeat exactly when the first p snapshots are distinct and the first p + 1 are not |
| Periods.KeyAtRun | solve_12.py:135 | the axis snapshot computed on that axis alone equals the axis snapshot of the whole run |
| Periods.Start | solve_12.py:132-133 | the initial bookkeeping is well formed; StartTracks states that no step has been recorded yet |
| Periods.CheckAxis | solve_12.py:137-142 | an axis still searched gets the current step as its period exactly when its snapshot is already in its history, and otherwise records the snapshot; a found axis and the other axes are left alone |
| Periods.CheckAxisTracks | solve_12.py:137-142 | one check extends the loop invariant by one step: a found period is the axis's first repeat, and otherwise the history holds exactly the snapshots seen, all different |
| Periods.CheckAll | solve_12.py:135-142 | one pass of the `for` over the axes x, y, z keeps the bookkeeping well formed; CheckAllTracks states what it records |
| Periods.CheckAllTracks | solve_12.py:135-142 | checking all three axes at step t turns the invariant for steps before t into the invariant for steps up to t |
| Periods.StartTracks | solve_12.py:132-133 | the initial bookkeeping satisfies the loop invariant before any step is checked |
| Periods.FoundIsFirstRepeat | solve_12.py:139 | a period the loop has recorded is positive, earlier than the current step and the first repeat of its axis |
| Periods.AllFound | solve_12.py:143 | `all(period)` with Python truthiness: every slot found and non-zero; no contract of its own, FoundIsFirstRepeat shows a found period is never 0 |
| Periods.FindPeriods | solve_12.py:134-146 | a search that finishes reports three positive periods |
| Periods.FindPeriodsCorrect | solve_12.py:134-146 | the loop reports the first repeat of every axis, each within the bound, and gives up only when some axis has no repeat within the bound |
| Periods.SearchPeriods | solve_12.py:131-146 | from step 0, every reported period is the first repeat of its axis within the fuel, and None means some axis has no repeat within the fuel |
| Periods.ExplainsLater | solve_12.py:131 | a search result is explained by the moons after m steps exactly when it is explained by the starting moons |
| Periods.ExplainsUnique | solve_12.py:134-146 | at most one search result is explained by a system, so the result is determined by the dynamics |
| Periods.SearchFromLaterStart | solve_12.py:131 | searching from the moons after any number of steps gives the same result as searching from the starting moons |
| Numbers.GcdDividesBoth | solve_12.py:110 | gcd(a, b) divides both a and b |
| Numbers.GcdGreatest | solve_12.py:110 | every common divisor of a and b divides gcd(a, b) |
| Numbers.Bezout | solve_12.py:110 | gcd(a, b) is an integer combination of a and b |
| Numbers.Gcd | solve_12.py:110 | `math.gcd` by Euclid's algorithm; no contract of its own: GcdDividesBoth and GcdGreatest state it is the greatest common divisor |
| Numbers.Lcm | solve_12.py:108-110 | lcm fails exactly when both arguments are zero, and otherwise returns a common multiple that is positive for positive arguments |
| Numbers.LcmLeast | solve_12.py:108-110 | lcm(a, b) divides every common multiple of a and b |
| Numbers.Lcms | solve_12.py:113-115 | `reduce(lcm, numbers)`, None on no numbers (where `reduce` raises) or when an `lcm` fails; no contract of its own: LcmsIsLeastCommonMultiple states it for positive numbers |
| Numbers.LcmsIsLeastCommonMultiple | solve_12.py:113-115 | for positive numbers, the folded lcm is positive and divides m exactly when every number divides m |
| Text.NatToString | solve_12.py:22 | a natural number prints as a non-empty string of decimal digits |
| Text.IntToString | solve_12.py:22 | an integer prints as a non-empty string of digits and minus signs |
| Text.ParseInt | solve_12.py:102-104 | int() accepts exactly an optional sign followed by at least one digit, and a negative result comes from a leading minus; the value of every accepted literal is fixed by IntRoundTrip with ParseIntPlus, ParseIntMinus and ParseIntLeadingZero |
| Text.ParseIntPlus | solve_12.py:102-104 | a `+` in front of a digit string does not change the value read |
| Text.ParseIntMinus | solve_12.py:102-104 | a `-` in front of a digit string negates the value read, so `-0` reads as 0 |
| Text.ParseIntLeadingZero | solve_12.py:102-104 | a leading zero in front of a digit string does not change the value read |
| Text.IntRoundTrip | solve_12.py:102-104 | printing an integer and parsing it gives the same integer back |
| Text.RemoveChar | solve_12.py:100 | replacing a character by nothing leaves no occurrence of it and never lengthens the string |
| Text.RemoveCharConcat | solve_12.py:100 | removing a character from a concatenation removes it from each part |
| Text.RemoveCharKeeps | solve_12.py:100 | every character other than the removed one occurs in the result as often as in the input; with RemoveCharConcat this fixes the result |
| Text.Strip | solve_12.py:100 | the three `replace` calls removing `<`, `>` and spaces; no contract of its own: RemoveChar, RemoveCharKeeps and RemoveCharConcat specify each removal |
| Text.DeleteAll | solve_12.py:102-104 | `.replace("x=", "")` and its y and z forms: deletes the non-overlapping occurrences of the label left to right in one pass, as `str.replace` does; no contract of its own: DeleteAllAbsent states that text without the label's first character is unchanged |
| Text.DeleteAllAbsent | solve_12.py:102-104 | text that does not contain the label's first character passes through the deletion unchanged |
| Text.Split | solve_12.py:101 | `split(",")`; its contract says there is always at least one piece, and SplitJoin states that the pieces are exactly the separator-free runs between the commas |
| Text.SplitJoin | solve_12.py:101 | splitting cuts at every separator and loses nothing: no piece holds the separator and joining the pieces restores the string |
| Text.Show | solve_12.py:21-22 | `Vector3.__str__`; no contract of its own: ParseShow states that parse_vec reads it back |
| Text.ParseVec | solve_12.py:99-105 | `parse_vec`, None where the source raises (fewer than three pieces, a piece that is not an integer); no contract of its own: ParseShow states it inverts Show |
| Text.ParseShow | solve_12.py:99-105 | parse_vec reads back every vector printed by Vector3.__str__ |
| Text.Collect | solve_12.py:123 | the moons are built exactly when every position parsed, one moon at rest per position |
| Text.ParseMoons | solve_12.py:122-123 | the input parses exactly when every line parses, giving one moon per line at that line's position with zero velocity |
| Drivers.Part1 | solve_12.py:121-128 | part 1 is never negative and is zero exactly when every moon is at the origin or stands still after 1000 steps |
| Drivers.Part1KeepsMomentum | solve_12.py:124-127 | the 1000 steps of part 1 keep the sum of the velocities |
| Drivers.Part2 | solve_12.py:130-147 | a reported answer is positive, and no answer means some axis has no repeat within the fuel |
| Drivers.AxisReturns | solve_12.py:136-142 | an axis is back at its starting snapshot after t steps exactly when its period divides t |
| Drivers.MoonsReturn | solve_12.py:82-87 | the moons are back at the start exactly when all three axis snapshots are |
| Drivers.ReturnsAtMultiples | solve_12.py:130-147 | the moons are back at their starting positions and velocities after s steps exactly when part 2's answer divides s |
| Drivers.Part2IsFirstReturn | solve_12.py:130-147 | part 2's answer is the first positive step count after which every moon is back at its starting position and velocity |
| Drivers.Program | solve_12.py:121-147 | the script as written, part 2 starting from the moons part 1 moved; no contract of its own: ProgramAnswers states its answers |
| Drivers.ProgramAnswers | solve_12.py:121-147 | the script as written answers exactly when the input parses and the search finishes, and its answers are part 1 and part 2 of the parsed moons, as if part 2 had started from fresh moons |
| Drivers.LoneMoonAtRest | solve_12.py:130-147 | given fuel for at least one step, a single moon at rest gives a part 2 answer of 1 |

## Left out

- Reading `inputs/input_12.txt` and stripping its lines (lines 118-119) is I/O. `Drivers.Program` takes the stripped lines as a parameter.
- Printing the answers (lines 149-151) and the `debug` printing in `apply_gravity` and `tick` (lines 69-70 and 76-77) are output only.
- `Moon.__str__` and `System.__str__` (lines 38-39 and 89-93) only feed the debug printing.
- `Vector3.__eq__` and `Moon.__eq__` (lines 12-13 and 41-42) are Dafny's equality on datatypes.
- `System.__eq__` (lines 95-96) is never called by the script. It compares moons through `zip`, so lists of different lengths can compare equal, and the model does not reproduce that.
- `Vector3.__iter__` (lines 24-27) is modelled by `Vectors.Comp`, which picks a component by axis.
- The shared default velocity `Vector3(0, 0, 0)` of `Moon.__init__` (line 34) is never mutated in place, because `-=` and `+=` rebind the attribute. The model gives every parsed moon the value `Zero`.
- The Python `set` and `dict` of part 2 are Dafny `set` and `map`. Hashing is not modelled.
- Part 2's `while True` runs until every axis repeats. `Periods.FindPeriods`, `Periods.SearchPeriods`, `Drivers.Part2` and `Drivers.Program` take a `fuel` bound instead and answer `None` when it runs out. The proofs state what `None` means; they do not bound the periods.
- Numbers.Lcm: uses exact integer division. The source divides `a * b` by the gcd as a float and truncates, which is exact only while `a * b / gcd(a, b)` stays below 2^53.
- Numbers.Lcm: `lcm(0, 0)` raises `ZeroDivisionError` in the source and is `None` here. Part 2 never reaches it, because every period it reports is positive.
- Text.ParseInt: Python's `int()` also accepts surrounding whitespace, `_` between digits and non-ASCII digits. The model accepts only an optional sign followed by ASCII digits. The spaces are already removed by `parse_vec` before `int()` is called.
- Object identity is not modelled. The sharing of `Moon` objects between the two parts is modelled by handing part 2 the moons as part 1 left them, in `Drivers.Program`.

=== FILE: axes.dfy ===
/** The per-axis view of the simulation behind `System.state`: gravity and
    motion act on each axis separately, so one axis's snapshot evolves on its
    own and can be searched for a repeat on its own. */
module Axes {
  import opened Vectors
  import opened Moons
  import opened Systems
  import opened Orbits

  /** The positions recorded in a snapshot. */
  function KeyPositions(st: Key): (xs: seq<int>)
    ensures |xs| == |st|
    ensures forall k :: 0 <= k < |st| ==> xs[k] == st[k].0
  {
    seq(|st|, k requires 0 <= k < |st| => st[k].0)
  }

  /** One simulation step of a single axis, computed from that axis's
      snapshot alone. */
  function AxisStep(st: Key): (r: Key)
    ensures |r| == |st|
  {
    var xs := KeyPositions(st);
    seq(|st|, k requires 0 <= k < |st| =>
      var v := st[k].1 + AxisSignSum(xs, 0, |st|, st[k].0);
      (st[k].0 + v, v))
  }

  /** One moon's entry of an axis snapshot after a full step. */
  lemma AdvanceAxisMoon(sys: System, a: Axis, k: nat)
    requires k < |sys.moons|
    ensures AxisState(Advance(sys), a)[k] == AxisStep(AxisState(sys, a))[k]
  {
    var ms := sys.moons;
    var g := ApplyGravity(sys);
    assert KeyPositions(AxisState(sys, a)) == AxisPositions(ms, a);
    GravityAxis(ms, k, a);
    AddComp(g.moons[k].pos, g.moons[k].vel, a);
  }

  /** The axes are independent: the snapshot of an axis after a full step is
      determined by the snapshot of that same axis before it. */
  lemma AdvanceAxis(sys: System, a: Axis)
    ensures AxisState(Advance(sys), a) == AxisStep(AxisState(sys, a))
  {
    forall k: nat | k < |sys.moons|
      ensures AxisState(Advance(sys), a)[k] == AxisStep(AxisState(sys, a))[k]
    {
      AdvanceAxisMoon(sys, a, k);
    }
  }

  /** A step can be undone: two snapshots with the same successor are equal.
      (The position before is the position after minus the velocity after;
      with the positions known, the pull and hence the old velocity follow.) */
  lemma AxisStepInjective(s1: Key, s2: Key)
    requires AxisStep(s1) == AxisStep(s2)
    ensures s1 == s2
  {
    var r1, r2 := AxisStep(s1), AxisStep(s2);
    assert |s1| == |s2|;
    forall k | 0 <= k < |s1|
      ensures s1[k].0 == s2[k].0
    {
      assert r1[k] == r2[k];
    }
    assert KeyPositions(s1) == KeyPositions(s2);
    forall k | 0 <= k < |s1|
      ensures s1[k] == s2[k]
    {
      assert r1[k] == r2[k];
    }
  }

  lemma AxisStepIsInjective()
    ensures Injective(AxisStep)
  {
    forall s1: Key, s2: Key | AxisStep(s1) == AxisStep(s2)
      ensures s1 == s2
    {
      AxisStepInjective(s1, s2);
    }
  }

  /** Running the whole system and then looking at one axis is the same as
      stepping that axis alone. */
  lemma {:induction false} RunAxis(sys: System, a: Axis, t: nat)
    ensures AxisState(Run(sys, t), a) == Orbit(AxisStep, AxisState(sys, a), t)
  {
    if t > 0 {
      RunAxis(sys, a, t - 1);
      AdvanceAxis(Run(sys, t - 1), a);
    }
  }
}

=== FILE: drivers.dfy ===
/** The two answers of the script, and the script as a whole: parse the
    moons, run 1000 steps for the energy, then search for the step at which
    the moons first come back. */
module Drivers {
  import opened Wrappers
  import opened Vectors
  import opened Moons
  import opened Systems
  import opened Numbers
  import opened Text
  import opened Orbits
  import opened Axes
  import opened Periods

  /** The number of steps simulated for part 1. */
  const Part1Steps: nat := 1000

  /** Part 1: the total energy after 1000 steps. It is zero exactly when every
      moon then sits at the origin or stands still. */
  function Part1(moons: seq<Moon>): (r: int)
    ensures r >= 0
    ensures r == 0 <==> forall k :: 0 <= k < |moons| ==> Inert(Later(moons, Part1Steps)[k])
  {
    var after := Run(NewSystem(moons), Part1Steps);
    assert after.moons == Later(moons, Part1Steps);
    assert |after.moons| == |moons|;
    Energy(after)
  }

  /** The velocities of the moons after part 1 still sum to what they summed
      to at the start (zero, for moons parsed at rest). */
  lemma Part1KeepsMomentum(moons: seq<Moon>)
    ensures SumVel(Run(NewSystem(moons), Part1Steps).moons) == SumVel(moons)
  {
    RunConservesMomentum(NewSystem(moons), Part1Steps);
  }

  /** Part 2: the least common multiple of the three axis periods, or `None`
      when the search runs out of fuel. */
  function Part2(moons: seq<Moon>, fuel: nat): (r: Option<nat>)
    ensures r.Some? ==> r.value > 0
    ensures r.None? ==> var n := fuel + 1; exists a: Axis :: DistinctUpTo(NewSystem(moons), a, n)
  {
    match SearchPeriods(moons, fuel)
    case None => None
    case Some(ps) =>
      LcmsIsLeastCommonMultiple(ps, 0);
      Lcms(ps)
  }

  /** An axis is back at its starting snapshot after `t` steps exactly when
      its period divides `t`. */
  lemma AxisReturns(init: System, a: Axis, p: nat, t: nat)
    requires IsFirstRepeat(init, a, p)
    ensures p > 0
    ensures AxisState(Run(init, t), a) == AxisState(init, a) <==> Divides(p, t)
  {
    AxisStepIsInjective();
    ReturnsExactlyAtMultiples(AxisStep, AxisState(init, a), p, t);
    KeyAtRun(init, a, t);
    DividesMod(p, t);
  }

  /** The moons are back exactly when all three axes are. */
  lemma MoonsReturn(init: System, t: nat)
    ensures Run(init, t).moons == init.moons <==>
              AxisState(Run(init, t), 0) == AxisState(init, 0) &&
              AxisState(Run(init, t), 1) == AxisState(init, 1) &&
              AxisState(Run(init, t), 2) == AxisState(init, 2)
  {
    var s1, s2 := State(Run(init, t)), State(init);
    StateDeterminesMoons(Run(init, t), init);
    if s1[0] == s2[0] && s1[1] == s2[1] && s1[2] == s2[2] {
      assert s1 == s2;
    }
  }

  /** The moons are back after `s` steps exactly when the answer of part 2
      divides `s`. */
  lemma ReturnsAtMultiples(moons: seq<Moon>, fuel: nat, s: nat)
    ensures Part2(moons, fuel).Some? ==>
              (Run(NewSystem(moons), s).moons == moons <==> Divides(Part2(moons, fuel).value, s))
  {
    if Part2(moons, fuel).Some? {
      ReturnsAtMultiplesFound(moons, fuel, s);
    }
  }

  lemma ReturnsAtMultiplesFound(moons: seq<Moon>, fuel: nat, s: nat)
    requires Part2(moons, fuel).Some?
    ensures Run(NewSystem(moons), s).moons == moons <==> Divides(Part2(moons, fuel).value, s)
  {
    var init := NewSystem(moons);
    var ps := SearchPeriods(moons, fuel).value;
    var l := Part2(moons, fuel).value;
    assert ps[0] > 0 && ps[1] > 0 && ps[2] > 0;
    LcmsIsLeastCommonMultiple(ps, s);
    AxisReturns(init, 0, ps[0], s);
    AxisReturns(init, 1, ps[1], s);
    AxisReturns(init, 2, ps[2], s);
    MoonsReturn(init, s);
    if Divides(l, s) {
      DividesTransitive(ps[0], l, s);
      DividesTransitive(ps[1], l, s);
      DividesTransitive(ps[2], l, s);
    }
  }

  /** The answer of part 2 is the first return of the moons: they are back at
      their starting positions and velocities after that many steps, and at
      no earlier step. */
  lemma Part2IsFirstReturn(moons: seq<Moon>, fuel: nat, t: nat)
    ensures Part2(moons, fuel).Some? ==>
              Run(NewSystem(moons), Part2(moons, fuel).value).moons == moons
    ensures Part2(moons, fuel).Some? && 0 < t && Run(NewSystem(moons), t).moons == moons ==>
              Part2(moons, fuel).value <= t
  {
    if Part2(moons, fuel).Some? {
      var l := Part2(moons, fuel).value;
      assert Divides(l, l) by {
        assert l == l * 1;
      }
      ReturnsAtMultiplesFound(moons, fuel, l);
      ReturnsAtMultiplesFound(moons, fuel, t);
      if 0 < t && Run(NewSystem(moons), t).moons == moons {
        DividesBound(l, t);
      }
    }
  }

  /** The script as written: parse the lines, run part 1, then run part 2 on
      `System(moons)` again. The `Moon` objects are shared between the two
      systems, so part 2 starts from the moons as part 1 left them, at step 0.
      `None` when a line does not parse or the search runs out of fuel. */
  function Program(lines: seq<string>, fuel: nat): (r: Option<(int, nat)>)
  {
    var moons :- ParseMoons(lines);
    var after := Run(NewSystem(moons), Part1Steps);
    var part2 :- Part2(after.moons, fuel);
    Some((Energy(after), part2))
  }

  /** The shared moons do not change the answers: the script reports part 1
      and part 2 of the parsed moons, as if part 2 had started from the input
      positions. */
  lemma ProgramAnswers(lines: seq<string>, fuel: nat)
    ensures Program(lines, fuel).Some? <==>
              ParseMoons(lines).Some? && Part2(ParseMoons(lines).value, fuel).Some?
    ensures Program(lines, fuel).Some? ==>
              Program(lines, fuel).value ==
                (Part1(ParseMoons(lines).value), Part2(ParseMoons(lines).value, fuel).value)
  {
    if ParseMoons(lines).Some? {
      var moons := ParseMoons(lines).value;
      SearchFromLaterStart(moons, Part1Steps, fuel);
      assert Part2(Later(moons, Part1Steps), fuel) == Part2(moons, fuel);
    }
  }

  /** A single moon at rest never moves, so each axis repeats after one step
      and part 2 answers 1. */
  lemma LoneMoonAtRest(p: Vec3, fuel: nat)
    requires fuel >= 1
    ensures Part2([Moon(p, Zero)], fuel) == Some(1)
  {
    var init := NewSystem([Moon(p, Zero)]);
    GravitySingleMoon(init);
    assert Run(init, 1).moons == init.moons;
    forall a: Axis
      ensures IsFirstRepeat(init, a, 1)
    {
      assert KeyAt(init, a, 0) == KeyAt(init, a, 1) by {
        KeyAtRun(init, a, 1);
      }
    }
    var r := Some([1, 1, 1]);
    assert Explains(init, r, fuel);
    ExplainsUnique(init, r, SearchPeriods([Moon(p, Zero)], fuel), fuel);
    assert Lcms([1, 1, 1]) == Some(1);
  }
}

=== FILE: moons.dfy ===
/** A moon: a position and a velocity, both integer triples. */
module Moons {
  import opened Vectors

  datatype Moon = Moon(pos: Vec3, vel: Vec3)

  /** `Moon.move`: the position advances by the velocity. The velocity is kept,
      so subtracting it from the new position recovers the old one. */
  function Move(m: Moon): (r: Moon)
    ensures r.vel == m.vel
    ensures Sub(r.pos, r.vel) == m.pos
  {
    Moon(Add(m.pos, m.vel), m.vel)
  }

  /** Potential energy: zero exactly at the origin. */
  function PotentialEnergy(m: Moon): (r: int)
    ensures r >= 0
    ensures r == 0 <==> m.pos == Zero
  {
    AbsSum(m.pos)
  }

  /** Kinetic energy: zero exactly when the moon is at rest. */
  function KineticEnergy(m: Moon): (r: int)
    ensures r >= 0
    ensures r == 0 <==> m.vel == Zero
  {
    AbsSum(m.vel)
  }

  /** A moon with no energy: at the origin or at rest. */
  predicate Inert(m: Moon)
  {
    m.pos == Zero || m.vel == Zero
  }

  /** Total energy is the product of potential and kinetic energy, so it
      vanishes exactly when the moon sits at the origin or is at rest. */
  function TotalEnergy(m: Moon): (r: int)
    ensures r >= 0
    ensures r == 0 <==> Inert(m)
  {
    var pe, ke := PotentialEnergy(m), KineticEnergy(m);
    ProductZero(pe, ke);
    pe * ke
  }

  lemma ProductZero(a: int, b: int)
    requires a >= 0 && b >= 0
    ensures a * b >= 0
    ensures a * b == 0 <==> (a == 0 || b == 0)
  {
    if a > 0 && b > 0 {
      assert a * b >= b by { MulMono(a, b); }
    }
  }

  lemma MulMono(a: int, b: int)
    requires a >= 1 && b >= 0
    ensures a * b >= b
  {
  }
}

=== FILE: numbers.dfy ===
/** `math.gcd`, `lcm` and `lcms` of solve_12.py, on exact integers. */
module Numbers {
  import opened Wrappers

  /** `d` divides `n`. */
  ghost predicate Divides(d: int, n: int)
  {
    exists k: int :: n == d * k
  }

  lemma MulAssoc(x: int, y: int, z: int)
    ensures (x * y) * z == x * (y * z)
  {
  }

  lemma MulDistrib(x: int, y: int, z: int)
    ensures x * (y + z) == x * y + x * z
  {
  }

  lemma MulComm(x: int, y: int)
    ensures x * y == y * x
  {
  }

  lemma DividesTransitive(a: int, b: int, c: int)
    requires Divides(a, b) && Divides(b, c)
    ensures Divides(a, c)
  {
    var k1 :| b == a * k1;
    var k2 :| c == b * k2;
    assert c == a * (k1 * k2);
  }

  /** A positive multiple of a positive number is at least that number. */
  lemma DividesBound(d: int, n: int)
    requires d > 0 && n > 0 && Divides(d, n)
    ensures d <= n
  {
    var k :| n == d * k;
    if k >= 1 {
      assert d * k == d + d * (k - 1);
      assert d * (k - 1) >= 0;
    }
  }

  lemma MulAtLeast(p: int, d: int)
    requires p > 0 && d >= 1
    ensures p * d >= p
  {
  }

  /** Euclidean division has one quotient and one remainder. */
  lemma ModUnique(x: int, p: int, k: int, r: int)
    requires p > 0 && 0 <= r < p && x == p * k + r
    ensures x % p == r
  {
    var d := k - x / p;
    assert p * d == x % p - r by {
      assert p * k - p * (x / p) == p * d;
    }
    if d >= 1 {
      MulAtLeast(p, d);
    } else if d <= -1 {
      MulAtLeast(p, -d);
    }
  }

  /** For a positive divisor, divisibility is a zero remainder. */
  lemma DividesMod(d: int, n: int)
    requires d > 0
    ensures Divides(d, n) <==> n % d == 0
  {
    if Divides(d, n) {
      var k :| n == d * k;
      ModUnique(n, d, k, 0);
    }
    if n % d == 0 {
      assert n == d * (n / d);
    }
  }

  /** Euclid's algorithm, as `math.gcd` computes it on non-negative numbers. */
  function Gcd(a: nat, b: nat): nat
    decreases b
  {
    if b == 0 then a else Gcd(b, a % b)
  }

  lemma {:induction false} GcdDividesBoth(a: nat, b: nat)
    ensures Divides(Gcd(a, b), a) && Divides(Gcd(a, b), b)
    decreases b
  {
    if b == 0 {
      assert a == a * 1 && 0 == a * 0;
    } else {
      GcdDividesBoth(b, a % b);
      var g := Gcd(b, a % b);
      var k1 :| b == g * k1;
      var k2 :| a % b == g * k2;
      var q := a / b;
      assert a == q * b + a % b;
      calc {
        a;
        q * b + a % b;
        q * (g * k1) + g * k2;
        { assert q * (g * k1) == g * (q * k1); }
        g * (q * k1) + g * k2;
        g * (q * k1 + k2);
      }
    }
  }

  lemma {:induction false} GcdPositive(a: nat, b: nat)
    requires a > 0 || b > 0
    ensures Gcd(a, b) > 0
    decreases b
  {
    if b > 0 {
      GcdPositive(b, a % b);
    }
  }

  /** Bezout coefficients from the extended Euclidean algorithm: the greatest
      common divisor is an integer combination of the two numbers. */
  function Bezout(a: nat, b: nat): (c: (int, int))
    ensures a * c.0 + b * c.1 == Gcd(a, b)
    decreases b
  {
    if b == 0 then (1, 0)
    else
      var c' := Bezout(b, a % b);
      var q := a / b;
      assert a % b == a - q * b;
      assert b * c'.0 + (a - q * b) * c'.1 == Gcd(a, b);
      assert (a - q * b) * c'.1 == a * c'.1 - b * (q * c'.1);
      (c'.1, c'.0 - q * c'.1)
  }

  /** Every common divisor divides the greatest common divisor. */
  lemma GcdGreatest(a: nat, b: nat, d: int)
    requires Divides(d, a) && Divides(d, b)
    ensures Divides(d, Gcd(a, b))
  {
    var c := Bezout(a, b);
    var k1 :| a == d * k1;
    var k2 :| b == d * k2;
    MulAssoc(d, k1, c.0);
    MulAssoc(d, k2, c.1);
    MulDistrib(d, k1 * c.0, k2 * c.1);
    assert Gcd(a, b) == d * (k1 * c.0 + k2 * c.1);
  }

  /** `lcm(a, b) = a * b / gcd(a, b)`; both arguments zero is a division by
      zero in the source, an error here. */
  function Lcm(a: nat, b: nat): (r: Option<nat>)
    ensures r.None? <==> a == 0 && b == 0
    ensures r.Some? ==> Divides(a, r.value) && Divides(b, r.value)
    ensures r.Some? && a > 0 && b > 0 ==> r.value > 0
  {
    var g := Gcd(a, b);
    if g == 0 then
      assert a == 0 && b == 0 by { if a > 0 || b > 0 { GcdPositive(a, b); } }
      None
    else
      LcmFacts(a, b);
      Some(a * b / g)
  }

  lemma LcmFacts(a: nat, b: nat)
    requires Gcd(a, b) > 0
    ensures a * b / Gcd(a, b) >= 0
    ensures a * b / Gcd(a, b) * Gcd(a, b) == a * b
    ensures Divides(a, a * b / Gcd(a, b)) && Divides(b, a * b / Gcd(a, b))
    ensures a > 0 && b > 0 ==> a * b / Gcd(a, b) > 0
  {
    var g := Gcd(a, b);
    GcdDividesBoth(a, b);
    var ka :| a == g * ka;
    var kb :| b == g * kb;
    var l := ka * b;
    MulAssoc(g, ka, b);
    assert a * b == g * l;
    DivExact(a * b, g, l);
    MulAssoc(ka, g, kb);
    MulComm(ka, g);
    MulComm(ka, b);
    MulComm(a, kb);
    assert l == a * kb;
    assert Divides(a, l) && Divides(b, l);
    if a > 0 {
      NonNegFactor(g, ka);
      ProductPos(ka, b);
    } else {
      assert l == 0;
    }
  }

  lemma DivExact(n: int, g: int, l: int)
    requires g > 0 && n == g * l
    ensures n / g == l && n / g * g == n
  {
    var q, r := n / g, n % g;
    assert n == g * q + r && 0 <= r < g;
    var e := l - q;
    MulDistrib(g, q, e);
    assert g * e == r;
    if e >= 1 {
      MulDistrib(g, 1, e - 1);
      ProductPos(g, e - 1);
    } else if e <= -1 {
      MulDistrib(g, -1, e + 1);
    }
    MulComm(q, g);
  }

  lemma NonNegFactor(g: int, k: int)
    requires g > 0 && g * k > 0
    ensures k > 0
  {
  }

  lemma ProductPos(x: int, y: nat)
    requires x > 0
    ensures x * y >= 0
    ensures y > 0 ==> x * y > 0
  {
  }

  /** The least common multiple divides every common multiple. */
  lemma LcmLeast(a: nat, b: nat, m: int)
    requires a > 0 && b > 0 && Divides(a, m) && Divides(b, m)
    ensures Lcm(a, b).Some? && Divides(Lcm(a, b).value, m)
  {
    var g := Gcd(a, b);
    GcdPositive(a, b);
    LcmFacts(a, b);
    var l := a * b / g;
    var c := Bezout(a, b);
    var s :| m == a * s;
    var t :| m == b * t;
    var q := t * c.0 + s * c.1;
    LcmLeastStep(a, b, g, l, c.0, c.1, s, t, m);
    CancelPositive(l * q, m, g);
  }

  /** The ring identity behind `LcmLeast`: with a*x + b*y = g, l*g = a*b,
      m = a*s = b*t, the product l*(t*x + s*y)*g equals g*m. */
  lemma LcmLeastStep(a: int, b: int, g: int, l: int, x: int, y: int, s: int, t: int, m: int)
    requires a * x + b * y == g && l * g == a * b && m == a * s && m == b * t
    ensures (l * (t * x + s * y)) * g == g * m
  {
    var q := t * x + s * y;
    calc {
      (l * q) * g;
      { MulAssoc(l, q, g); MulComm(q, g); MulAssoc(l, g, q); }
      (l * g) * q;
      (a * b) * q;
      { MulDistrib(a * b, t * x, s * y); }
      (a * b) * (t * x) + (a * b) * (s * y);
      { assert (a * b) * (t * x) == (a * x) * (b * t); assert (a * b) * (s * y) == (b * y) * (a * s); }
      (a * x) * m + (b * y) * m;
      (a * x + b * y) * m;
      g * m;
    }
  }

  lemma CancelPositive(x: int, y: int, g: int)
    requires g > 0 && x * g == g * y
    ensures x == y
  {
    assert (x - y) * g == 0;
  }

  /** `reduce(lcm, numbers)` from a starting value. */
  function LcmFold(acc: nat, ns: seq<nat>): Option<nat>
    decreases |ns|
  {
    if ns == [] then Some(acc)
    else
      match Lcm(acc, ns[0])
      case None => None
      case Some(l) => LcmFold(l, ns[1..])
  }

  /** `lcms(*numbers)`: `reduce` on no numbers at all is an error. */
  function Lcms(ns: seq<nat>): Option<nat>
  {
    if ns == [] then None else LcmFold(ns[0], ns[1..])
  }

  lemma {:induction false} LcmFoldCommonMultiple(acc: nat, ns: seq<nat>)
    requires acc > 0 && forall i :: 0 <= i < |ns| ==> ns[i] > 0
    ensures LcmFold(acc, ns).Some?
    ensures LcmFold(acc, ns).value > 0
    ensures Divides(acc, LcmFold(acc, ns).value)
    ensures forall i :: 0 <= i < |ns| ==> Divides(ns[i], LcmFold(acc, ns).value)
    decreases |ns|
  {
    if ns == [] {
      assert acc == acc * 1;
    } else {
      var l := Lcm(acc, ns[0]).value;
      LcmFoldCommonMultiple(l, ns[1..]);
      var v := LcmFold(l, ns[1..]).value;
      DividesTransitive(acc, l, v);
      DividesTransitive(ns[0], l, v);
      forall i | 1 <= i < |ns|
        ensures Divides(ns[i], v)
      {
        assert ns[i] == ns[1..][i - 1];
      }
    }
  }

  lemma {:induction false} LcmFoldLeast(acc: nat, ns: seq<nat>, m: int)
    requires acc > 0 && forall i :: 0 <= i < |ns| ==> ns[i] > 0
    requires Divides(acc, m) && forall i :: 0 <= i < |ns| ==> Divides(ns[i], m)
    ensures LcmFold(acc, ns).Some? && Divides(LcmFold(acc, ns).value, m)
    decreases |ns|
  {
    if ns != [] {
      LcmLeast(acc, ns[0], m);
      var l := Lcm(acc, ns[0]).value;
      forall i | 0 <= i < |ns[1..]|
        ensures Divides(ns[1..][i], m)
      {
        assert ns[1..][i] == ns[i + 1];
      }
      LcmFoldLeast(l, ns[1..], m);
    }
  }

  /** For positive numbers, `lcms` is a positive common multiple that divides
      every common multiple: the least common multiple. */
  lemma LcmsIsLeastCommonMultiple(ns: seq<nat>, m: int)
    requires ns != [] && forall i :: 0 <= i < |ns| ==> ns[i] > 0
    ensures Lcms(ns).Some? && Lcms(ns).value > 0
    ensures forall i :: 0 <= i < |ns| ==> Divides(ns[i], Lcms(ns).value)
    ensures (forall i :: 0 <= i < |ns| ==> Divides(ns[i], m)) ==> Divides(Lcms(ns).value, m)
  {
    LcmFoldCommonMultiple(ns[0], ns[1..]);
    var v := Lcms(ns).value;
    forall i | 0 <= i < |ns|
      ensures Divides(ns[i], v)
    {
      if i > 0 { assert ns[i] == ns[1..][i - 1]; }
    }
    if forall i :: 0 <= i < |ns| ==> Divides(ns[i], m) {
      forall i | 0 <= i < |ns[1..]|
        ensures Divides(ns[1..][i], m)
      {
        assert ns[1..][i] == ns[i + 1];
      }
      LcmFoldLeast(ns[0], ns[1..], m);
    }
  }
}

=== FILE: orbits.dfy ===
/** Orbits of a step function: the states reached from a start by repeating
    the step. Part 2 relies on one fact about them: when the step can be
    undone, the first state that repeats is the start itself, and the orbit
    is back at the start exactly at the multiples of that step count. */
module Orbits {

  /** The state after `t` steps from `s0`. */
  function Orbit<T>(f: T -> T, s0: T, t: nat): T
  {
    if t == 0 then s0 else f(Orbit(f, s0, t - 1))
  }

  ghost predicate Injective<T(!new)>(f: T -> T)
  {
    forall x: T, y: T :: f(x) == f(y) ==> x == y
  }

  /** The first `n` states of the orbit are pairwise different. */
  ghost predicate DistinctPrefix<T>(f: T -> T, s0: T, n: nat)
  {
    forall i: nat, j: nat :: i < j < n ==> Orbit(f, s0, i) != Orbit(f, s0, j)
  }

  /** Step `p` is the first whose state has been reached before. */
  ghost predicate FirstRepeat<T>(f: T -> T, s0: T, p: nat)
  {
    DistinctPrefix(f, s0, p) && exists q: nat :: q < p && Orbit(f, s0, q) == Orbit(f, s0, p)
  }

  lemma {:induction false} OrbitAdd<T>(f: T -> T, s0: T, m: nat, n: nat)
    ensures Orbit(f, s0, m + n) == Orbit(f, Orbit(f, s0, m), n)
    decreases n
  {
    if n > 0 {
      OrbitAdd(f, s0, m, n - 1);
    }
  }

  /** An orbit back at its start replays itself. */
  lemma OrbitShift<T>(f: T -> T, s0: T, p: nat, t: nat)
    requires Orbit(f, s0, p) == s0
    ensures Orbit(f, s0, p + t) == Orbit(f, s0, t)
  {
    OrbitAdd(f, s0, p, t);
  }

  lemma {:induction false} OrbitShiftMultiple<T>(f: T -> T, s0: T, p: nat, q: nat, r: nat)
    requires Orbit(f, s0, p) == s0
    ensures Orbit(f, s0, p * q + r) == Orbit(f, s0, r)
    decreases q
  {
    if q > 0 {
      OrbitShiftMultiple(f, s0, p, q - 1, r);
      assert p * q + r == p + (p * (q - 1) + r);
      OrbitShift(f, s0, p, p * (q - 1) + r);
    }
  }

  /** Under an injective step two matching states were preceded by matching
      states. */
  lemma MatchBefore<T(!new)>(f: T -> T, s0: T, q: nat, p: nat)
    requires Injective(f) && 0 < q < p && Orbit(f, s0, q) == Orbit(f, s0, p)
    ensures Orbit(f, s0, q - 1) == Orbit(f, s0, p - 1)
  {
    assert f(Orbit(f, s0, q - 1)) == f(Orbit(f, s0, p - 1));
  }

  /** Under an injective step the first repeat returns to the start: a match
      of step `p` with an earlier step `q > 0` would give a match of `p - 1`
      with `q - 1`. */
  lemma FirstRepeatReturns<T(!new)>(f: T -> T, s0: T, p: nat)
    requires Injective(f) && FirstRepeat(f, s0, p)
    ensures p > 0 && Orbit(f, s0, p) == s0
  {
    var q: nat :| q < p && Orbit(f, s0, q) == Orbit(f, s0, p);
    if q > 0 {
      MatchBefore(f, s0, q, p);
    }
  }

  /** The first repeat is the period: the orbit is at its start exactly at
      the multiples of it. */
  lemma ReturnsExactlyAtMultiples<T(!new)>(f: T -> T, s0: T, p: nat, t: nat)
    requires Injective(f) && FirstRepeat(f, s0, p)
    ensures p > 0
    ensures Orbit(f, s0, t) == s0 <==> t % p == 0
  {
    FirstRepeatReturns(f, s0, p);
    var q: nat, r: nat := t / p, t % p;
    assert t == p * q + r;
    OrbitShiftMultiple(f, s0, p, q, r);
    if r != 0 {
      assert Orbit(f, s0, 0) != Orbit(f, s0, r);
    }
  }

  /** An orbit has at most one first repeat. */
  lemma FirstRepeatUnique<T(!new)>(f: T -> T, s0: T, p1: nat, p2: nat)
    requires Injective(f) && FirstRepeat(f, s0, p1) && FirstRepeat(f, s0, p2)
    ensures p1 == p2
  {
    FirstRepeatReturns(f, s0, p1);
    FirstRepeatReturns(f, s0, p2);
    assert Orbit(f, s0, 0) == s0;
  }

  /** No prefix longer than the first repeat is free of repeats. */
  lemma FirstRepeatBound<T>(f: T -> T, s0: T, p: nat, n: nat)
    requires FirstRepeat(f, s0, p) && p < n
    ensures !DistinctPrefix(f, s0, n)
  {
    var q: nat :| q < p && Orbit(f, s0, q) == Orbit(f, s0, p);
  }

  /** Equal states stay equal under further steps. */
  lemma OrbitForward<T>(f: T -> T, s0: T, m: nat, i: nat, j: nat)
    requires Orbit(f, s0, i) == Orbit(f, s0, j)
    ensures Orbit(f, s0, m + i) == Orbit(f, s0, m + j)
  {
    OrbitAdd(f, s0, i, m);
    OrbitAdd(f, s0, j, m);
  }

  /** Under an injective step, states that are equal after `m` further steps
      were equal before them. */
  lemma {:induction false} OrbitBackward<T(!new)>(f: T -> T, s0: T, m: nat, i: nat, j: nat)
    requires Injective(f) && Orbit(f, s0, m + i) == Orbit(f, s0, m + j)
    ensures Orbit(f, s0, i) == Orbit(f, s0, j)
    decreases m
  {
    if m > 0 {
      assert f(Orbit(f, s0, (m - 1) + i)) == f(Orbit(f, s0, (m - 1) + j));
      OrbitBackward(f, s0, m - 1, i, j);
    }
  }

  /** Under an injective step, two steps of the orbit from a later state
      match exactly when the same two steps of the orbit from the start do. */
  lemma ShiftedMatch<T(!new)>(f: T -> T, s0: T, m: nat, i: nat, j: nat)
    requires Injective(f)
    ensures Orbit(f, Orbit(f, s0, m), i) == Orbit(f, Orbit(f, s0, m), j) <==> Orbit(f, s0, i) == Orbit(f, s0, j)
  {
    OrbitAdd(f, s0, m, i);
    OrbitAdd(f, s0, m, j);
    if Orbit(f, s0, m + i) == Orbit(f, s0, m + j) {
      OrbitBackward(f, s0, m, i, j);
    }
    if Orbit(f, s0, i) == Orbit(f, s0, j) {
      OrbitForward(f, s0, m, i, j);
    }
  }

  /** Under an injective step, the orbit from any later state has the same
      repeat-free prefixes as the orbit from the start. */
  lemma DistinctPrefixShift<T(!new)>(f: T -> T, s0: T, m: nat, n: nat)
    requires Injective(f)
    ensures DistinctPrefix(f, Orbit(f, s0, m), n) <==> DistinctPrefix(f, s0, n)
  {
    forall i: nat, j: nat | i < j < n
      ensures Orbit(f, Orbit(f, s0, m), i) == Orbit(f, Orbit(f, s0, m), j) <==> Orbit(f, s0, i) == Orbit(f, s0, j)
    {
      ShiftedMatch(f, s0, m, i, j);
    }
  }

  /** Under an injective step, the orbit from any later state has the same
      first repeat as the orbit from the start. */
  lemma FirstRepeatShift<T(!new)>(f: T -> T, s0: T, m: nat, p: nat)
    requires Injective(f)
    ensures FirstRepeat(f, Orbit(f, s0, m), p) <==> FirstRepeat(f, s0, p)
  {
    var s1 := Orbit(f, s0, m);
    DistinctPrefixShift(f, s0, m, p);
    DistinctPrefixShift(f, s0, m, p + 1);
    FirstRepeatNotDistinct(f, s0, p);
    FirstRepeatNotDistinct(f, s1, p);
  }

  /** A first repeat at `p` is a repeat-free prefix of length `p` that cannot
      be extended by one. */
  lemma FirstRepeatNotDistinct<T>(f: T -> T, s0: T, p: nat)
    ensures FirstRepeat(f, s0, p) <==> DistinctPrefix(f, s0, p) && !DistinctPrefix(f, s0, p + 1)
  {
    if DistinctPrefix(f, s0, p) && !DistinctPrefix(f, s0, p + 1) {
      var i: nat, j: nat :| i < j < p + 1 && Orbit(f, s0, i) == Orbit(f, s0, j);
      assert j == p;
    }
  }
}

=== FILE: periods.dfy ===
/** The search of part 2: every axis is watched until its snapshot repeats,
    and the step at which it first repeats is that axis's period. */
module Periods {
  import opened Wrappers
  import opened Vectors
  import opened Moons
  import opened Systems
  import opened Axes
  import opened Orbits

  // ---------------------------------------------------------------------------
  // The snapshots of one axis along a run.

  /** The snapshot of axis `a` after `t` steps from `init`, computed on that
      axis alone (`KeyAtRun` shows it is the snapshot of the whole run). */
  function KeyAt(init: System, a: Axis, t: nat): Key
  {
    Orbit(AxisStep, AxisState(init, a), t)
  }

  lemma KeyAtRun(init: System, a: Axis, t: nat)
    ensures KeyAt(init, a, t) == AxisState(Run(init, t), a)
  {
    RunAxis(init, a, t);
  }

  /** The first `n` snapshots of axis `a` are pairwise different. */
  ghost predicate DistinctUpTo(init: System, a: Axis, n: nat)
  {
    DistinctPrefix(AxisStep, AxisState(init, a), n)
  }

  /** Step `p` is the first step whose snapshot of axis `a` has been seen
      before. */
  ghost predicate IsFirstRepeat(init: System, a: Axis, p: nat)
  {
    FirstRepeat(AxisStep, AxisState(init, a), p)
  }

  // ---------------------------------------------------------------------------
  // The bookkeeping of the loop: `history` and `period`.

  /** The loop's variables: the snapshots seen so far for every axis still
      searched, and the period found for each axis (`None` while searching). */
  datatype Tracker = Tracker(history: map<Axis, set<Key>>, period: seq<Option<nat>>)

  /** Three period slots, and an entry in `history` for every axis still
      searched (the source deletes an axis's entry when its period is found). */
  predicate WellFormed(tr: Tracker)
  {
    |tr.period| == 3 && forall a: Axis :: tr.period[a].None? ==> a in tr.history
  }

  /** Every axis starts with an empty history and no period. */
  function Start(): (tr: Tracker)
    ensures WellFormed(tr)
  {
    Tracker(map[0 := {}, 1 := {}, 2 := {}], [None, None, None])
  }

  /** The loop body for one axis: an axis still searched either finds its
      snapshot in its history (the period is the current step and the history
      is deleted) or records it. */
  function CheckAxis(tr: Tracker, a: Axis, st: Key, step: nat): (r: Tracker)
    requires WellFormed(tr)
    ensures WellFormed(r)
    ensures tr.period[a].Some? ==> r == tr
    ensures tr.period[a].None? ==> (r.period[a] == Some(step) <==> st in tr.history[a])
    ensures tr.period[a].None? && st !in tr.history[a] ==>
              r.period[a].None? && r.history[a] == tr.history[a] + {st}
    ensures forall b: Axis :: b != a ==> r.period[b] == tr.period[b]
    ensures forall b: Axis :: b != a && b in tr.history ==> b in r.history && r.history[b] == tr.history[b]
  {
    if tr.period[a].None? then
      if st in tr.history[a] then Tracker(tr.history - {a}, tr.period[a := Some(step)])
      else Tracker(tr.history[a := tr.history[a] + {st}], tr.period)
    else tr
  }

  /** The loop body on a snapshot triple: the axes x, y and z in turn. */
  function CheckKeys(tr: Tracker, keys: seq<Key>, step: nat): (r: Tracker)
    requires WellFormed(tr) && |keys| == 3
    ensures WellFormed(r)
  {
    CheckAxis(CheckAxis(CheckAxis(tr, 0, keys[0], step), 1, keys[1], step), 2, keys[2], step)
  }

  /** The loop body on the current state. */
  function CheckAll(tr: Tracker, sys: System): (r: Tracker)
    requires WellFormed(tr)
    ensures WellFormed(r)
  {
    CheckKeys(tr, State(sys), sys.step)
  }

  /** `all(period)`: every slot filled with a truthy (non-zero) step. */
  predicate AllFound(period: seq<Option<nat>>)
    requires |period| == 3
  {
    forall a: Axis :: period[a].Some? && period[a].value != 0
  }

  /** The `while True` loop from the current system and tracker, allowed
      `fuel` more steps after this check; `None` when the fuel runs out. */
  function FindPeriods(cur: System, tr: Tracker, fuel: nat): (r: Option<seq<nat>>)
    requires WellFormed(tr)
    ensures r.Some? ==> |r.value| == 3 && forall a: Axis :: r.value[a] > 0
    decreases fuel
  {
    var next := CheckAll(tr, cur);
    if AllFound(next.period) then
      Some([next.period[0].value, next.period[1].value, next.period[2].value])
    else if fuel == 0 then None
    else FindPeriods(Advance(cur), next, fuel - 1)
  }

  // ---------------------------------------------------------------------------
  // What the bookkeeping means.

  /** After the checks of steps `0 .. t-1`: an axis still searched has seen
      exactly those snapshots, all different; an axis with a period found its
      first repeat at an earlier step. */
  ghost predicate AxisTracks(init: System, tr: Tracker, a: Axis, t: nat)
    requires WellFormed(tr)
  {
    match tr.period[a]
    case None =>
      tr.history[a] == (set i: nat | i < t :: KeyAt(init, a, i)) && DistinctUpTo(init, a, t)
    case Some(p) => p < t && IsFirstRepeat(init, a, p)
  }

  ghost predicate Tracks(init: System, tr: Tracker, t: nat)
  {
    init.step == 0 && WellFormed(tr) && forall a: Axis :: AxisTracks(init, tr, a, t)
  }

  lemma StartTracks(init: System)
    requires init.step == 0
    ensures Tracks(init, Start(), 0)
  {
    forall a: Axis
      ensures AxisTracks(init, Start(), a, 0)
    {
      assert (set i: nat | i < 0 :: KeyAt(init, a, i)) == {};
    }
  }

  /** Checking the snapshot of step `t` on one axis moves that axis's
      bookkeeping from `t` to `t + 1`. */
  lemma CheckAxisTracks(init: System, tr: Tracker, a: Axis, t: nat)
    requires WellFormed(tr) && AxisTracks(init, tr, a, t)
    ensures AxisTracks(init, CheckAxis(tr, a, KeyAt(init, a, t), t), a, t + 1)
  {
    var st := KeyAt(init, a, t);
    var r := CheckAxis(tr, a, st, t);
    if tr.period[a].None? {
      if st in tr.history[a] {
        var i: nat :| i < t && KeyAt(init, a, i) == st;
        assert IsFirstRepeat(init, a, t);
      } else {
        assert r.history[a] == (set i: nat | i < t + 1 :: KeyAt(init, a, i));
        var s0 := AxisState(init, a);
        forall i: nat, j: nat | i < j < t + 1
          ensures Orbit(AxisStep, s0, i) != Orbit(AxisStep, s0, j)
        {
          if j == t {
            assert KeyAt(init, a, i) in tr.history[a];
          }
        }
        assert DistinctUpTo(init, a, t + 1);
      }
    }
  }

  /** The bookkeeping of an axis is untouched by the check of another. */
  lemma AxisTracksFrame(init: System, tr: Tracker, r: Tracker, b: Axis, t: nat)
    requires WellFormed(tr) && WellFormed(r)
    requires r.period[b] == tr.period[b]
    requires b in tr.history ==> b in r.history && r.history[b] == tr.history[b]
    requires AxisTracks(init, tr, b, t)
    ensures AxisTracks(init, r, b, t)
  {
  }

  /** The steps whose snapshot of axis `b` has been checked, part way
      through the checks of step `t`: the axes before `a` are done with it. */
  function Checked(b: Axis, a: nat, t: nat): nat
  {
    if b < a then t + 1 else t
  }

  ghost predicate TracksPart(init: System, tr: Tracker, t: nat, a: nat)
  {
    init.step == 0 && WellFormed(tr) && forall b: Axis :: AxisTracks(init, tr, b, Checked(b, a, t))
  }

  lemma CheckAxisAdvances(init: System, tr: Tracker, a: Axis, t: nat)
    requires TracksPart(init, tr, t, a)
    ensures TracksPart(init, CheckAxis(tr, a, KeyAt(init, a, t), t), t, a + 1)
  {
    var r := CheckAxis(tr, a, KeyAt(init, a, t), t);
    var next := a + 1;
    forall b: Axis
      ensures AxisTracks(init, r, b, Checked(b, next, t))
    {
      assert AxisTracks(init, tr, b, Checked(b, a, t));
      if b == a {
        CheckAxisTracks(init, tr, a, t);
      } else {
        AxisTracksFrame(init, tr, r, b, Checked(b, a, t));
      }
    }
  }

  lemma CheckKeysTracks(init: System, tr: Tracker, t: nat)
    requires Tracks(init, tr, t)
    ensures Tracks(init, CheckKeys(tr, [KeyAt(init, 0, t), KeyAt(init, 1, t), KeyAt(init, 2, t)], t), t + 1)
  {
    assert TracksPart(init, tr, t, 0) by {
      forall b: Axis ensures AxisTracks(init, tr, b, Checked(b, 0, t)) {
        assert AxisTracks(init, tr, b, t);
      }
    }
    var tr1 := CheckAxis(tr, 0, KeyAt(init, 0, t), t);
    CheckAxisAdvances(init, tr, 0, t);
    var tr2 := CheckAxis(tr1, 1, KeyAt(init, 1, t), t);
    CheckAxisAdvances(init, tr1, 1, t);
    var tr3 := CheckAxis(tr2, 2, KeyAt(init, 2, t), t);
    CheckAxisAdvances(init, tr2, 2, t);
    var n := t + 1;
    forall b: Axis ensures AxisTracks(init, tr3, b, n) {
      assert AxisTracks(init, tr3, b, Checked(b, 3, t));
    }
  }

  /** The loop body keeps the meaning of the bookkeeping, one step on. */
  lemma CheckAllTracks(init: System, tr: Tracker, t: nat)
    requires Tracks(init, tr, t)
    ensures Tracks(init, CheckAll(tr, Run(init, t)), t + 1)
  {
    var cur := Run(init, t);
    KeyAtRun(init, 0, t);
    KeyAtRun(init, 1, t);
    KeyAtRun(init, 2, t);
    assert State(cur) == [KeyAt(init, 0, t), KeyAt(init, 1, t), KeyAt(init, 2, t)];
    CheckKeysTracks(init, tr, t);
  }

  /** A period in the bookkeeping is a first repeat, and not zero. */
  lemma FoundIsFirstRepeat(init: System, tr: Tracker, a: Axis, t: nat)
    requires WellFormed(tr) && AxisTracks(init, tr, a, t) && tr.period[a].Some?
    ensures 0 < tr.period[a].value < t && IsFirstRepeat(init, a, tr.period[a].value)
  {
    AxisStepIsInjective();
    FirstRepeatReturns(AxisStep, AxisState(init, a), tr.period[a].value);
  }

  /** What a result of the loop means when every step up to `bound` may have
      been checked: either the first repeat of every axis, each at most
      `bound`, or an axis whose first `bound + 1` snapshots are all different. */
  ghost predicate Explains(init: System, r: Option<seq<nat>>, bound: nat)
  {
    match r
    case Some(ps) => |ps| == 3 && forall a: Axis :: ps[a] <= bound && IsFirstRepeat(init, a, ps[a])
    case None => var n := bound + 1; exists a: Axis :: DistinctUpTo(init, a, n)
  }

  /** When the check of step `t - 1` completes the periods, they explain the
      result. */
  lemma FoundExplains(init: System, tr: Tracker, t: nat, bound: nat)
    requires Tracks(init, tr, t) && AllFound(tr.period) && t <= bound + 1
    ensures Explains(init, Some([tr.period[0].value, tr.period[1].value, tr.period[2].value]), bound)
  {
    assert AxisTracks(init, tr, 0, t) && AxisTracks(init, tr, 1, t) && AxisTracks(init, tr, 2, t);
    FoundIsFirstRepeat(init, tr, 0, t);
    FoundIsFirstRepeat(init, tr, 1, t);
    FoundIsFirstRepeat(init, tr, 2, t);
  }

  /** When a period is still missing after the check of step `t - 1`, that
      axis has not repeated in the first `t` steps. */
  lemma MissingExplains(init: System, tr: Tracker, t: nat)
    requires Tracks(init, tr, t) && !AllFound(tr.period) && t > 0
    ensures Explains(init, None, t - 1)
  {
    var a: Axis :| tr.period[a].None? || tr.period[a].value == 0;
    assert AxisTracks(init, tr, a, t);
    if tr.period[a].Some? {
      FoundIsFirstRepeat(init, tr, a, t);
    }
    assert DistinctUpTo(init, a, t);
  }

  /** The loop, started on the bookkeeping of steps `0 .. t-1`, finds the first
      repeat of every axis within the fuel, and gives up only when some axis
      has not repeated within it. */
  lemma {:induction false} FindPeriodsCorrect(init: System, tr: Tracker, t: nat, fuel: nat)
    requires Tracks(init, tr, t)
    ensures Explains(init, FindPeriods(Run(init, t), tr, fuel), t + fuel)
    decreases fuel
  {
    var cur := Run(init, t);
    var next := CheckAll(tr, cur);
    CheckAllTracks(init, tr, t);
    if AllFound(next.period) {
      FoundExplains(init, next, t + 1, t + fuel);
    } else if fuel == 0 {
      MissingExplains(init, next, t + 1);
    } else {
      assert Run(init, t + 1) == Advance(cur);
      FindPeriodsCorrect(init, next, t + 1, fuel - 1);
    }
  }

  /** Part 2's search from freshly built moons (step 0): each reported value
      is the first repeat, hence the period, of its axis; `None` only when
      some axis does not repeat within the first `fuel` steps. */
  function SearchPeriods(moons: seq<Moon>, fuel: nat): (r: Option<seq<nat>>)
    ensures Explains(NewSystem(moons), r, fuel)
    ensures r.Some? ==> |r.value| == 3 && forall a: Axis :: r.value[a] > 0
  {
    var init := NewSystem(moons);
    StartTracks(init);
    FindPeriodsCorrect(init, Start(), 0, fuel);
    assert Run(init, 0) == init;
    FindPeriods(init, Start(), fuel)
  }

  // ---------------------------------------------------------------------------
  // Where the search starts does not matter.

  /** The moons after `m` steps, as a fresh system. */
  function Later(moons: seq<Moon>, m: nat): seq<Moon>
  {
    Run(NewSystem(moons), m).moons
  }

  lemma LaterAxis(moons: seq<Moon>, m: nat, a: Axis)
    ensures AxisState(NewSystem(Later(moons, m)), a) == Orbit(AxisStep, AxisState(NewSystem(moons), a), m)
  {
    RunAxis(NewSystem(moons), a, m);
  }

  /** Every axis has the same repeat-free prefixes and the same first repeat
      from the moons after `m` steps as from the moons themselves. */
  lemma LaterAxisRepeats(moons: seq<Moon>, m: nat, a: Axis, n: nat)
    ensures DistinctUpTo(NewSystem(Later(moons, m)), a, n) <==> DistinctUpTo(NewSystem(moons), a, n)
    ensures IsFirstRepeat(NewSystem(Later(moons, m)), a, n) <==> IsFirstRepeat(NewSystem(moons), a, n)
  {
    LaterAxis(moons, m, a);
    AxisStepIsInjective();
    DistinctPrefixShift(AxisStep, AxisState(NewSystem(moons), a), m, n);
    FirstRepeatShift(AxisStep, AxisState(NewSystem(moons), a), m, n);
  }

  /** The moons after `m` steps explain a search result exactly when the
      moons themselves do. */
  lemma ExplainsLater(moons: seq<Moon>, m: nat, r: Option<seq<nat>>, fuel: nat)
    ensures Explains(NewSystem(Later(moons, m)), r, fuel) <==> Explains(NewSystem(moons), r, fuel)
  {
    var n := fuel + 1;
    forall a: Axis
      ensures DistinctUpTo(NewSystem(Later(moons, m)), a, n) <==> DistinctUpTo(NewSystem(moons), a, n)
    {
      LaterAxisRepeats(moons, m, a, n);
    }
    if r.Some? && |r.value| == 3 {
      forall a: Axis
        ensures IsFirstRepeat(NewSystem(Later(moons, m)), a, r.value[a]) <==> IsFirstRepeat(NewSystem(moons), a, r.value[a])
      {
        LaterAxisRepeats(moons, m, a, r.value[a]);
      }
    }
  }

  /** At most one search result is explained by a system. */
  lemma ExplainsUnique(init: System, r0: Option<seq<nat>>, r1: Option<seq<nat>>, fuel: nat)
    requires Explains(init, r0, fuel) && Explains(init, r1, fuel)
    ensures r0 == r1
  {
    AxisStepIsInjective();
    if r0.Some? && r1.Some? {
      forall a: Axis
        ensures r0.value[a] == r1.value[a]
      {
        FirstRepeatUnique(AxisStep, AxisState(init, a), r0.value[a], r1.value[a]);
      }
      assert r0.value == r1.value;
    } else if r0.Some? {
      NoAxisDistinct(init, r0.value, fuel);
    } else if r1.Some? {
      NoAxisDistinct(init, r1.value, fuel);
    }
  }

  /** When every axis has its first repeat within the fuel, no axis stays
      repeat-free for longer. */
  lemma NoAxisDistinct(init: System, ps: seq<nat>, fuel: nat)
    requires Explains(init, Some(ps), fuel)
    ensures var n := fuel + 1; forall a: Axis :: !DistinctUpTo(init, a, n)
  {
    var n := fuel + 1;
    forall a: Axis
      ensures !DistinctUpTo(init, a, n)
    {
      FirstRepeatBound(AxisStep, AxisState(init, a), ps[a], fuel + 1);
    }
  }

  /** Starting the search from the moons after any number of steps gives the
      same result as starting it from the moons themselves. */
  lemma SearchFromLaterStart(moons: seq<Moon>, m: nat, fuel: nat)
    ensures SearchPeriods(Later(moons, m), fuel) == SearchPeriods(moons, fuel)
  {
    var r1 := SearchPeriods(Later(moons, m), fuel);
    ExplainsLater(moons, m, r1, fuel);
    ExplainsUnique(NewSystem(moons), r1, SearchPeriods(moons, fuel), fuel);
  }
}

=== FILE: systems.dfy ===
/** The `System` class of solve_12.py: an ordered collection of moons and a
    step counter, advanced by a gravity update followed by a tick. */
module Systems {
  import opened Vectors
  import opened Moons

  datatype System = System(moons: seq<Moon>, step: nat)

  /** Construction: the step counter starts at 0. */
  function NewSystem(moons: seq<Moon>): System
  {
    System(moons, 0)
  }

  // ---------------------------------------------------------------------------
  // The pairs visited by `combinations(moons, 2)`, as index pairs, in the
  // order itertools produces them: (0,1), (0,2), ..., (0,n-1), (1,2), ...

  /** The pairs (i, j), (i, j+1), ..., (i, n-1). */
  function Row(i: nat, j: nat, n: nat): seq<(nat, nat)>
    decreases n - j
  {
    if j >= n then [] else [(i, j)] + Row(i, j + 1, n)
  }

  /** All pairs whose first index is at least `i`. */
  function CombinationsFrom(i: nat, n: nat): seq<(nat, nat)>
    decreases n - i
  {
    if i >= n then [] else Row(i, i + 1, n) + CombinationsFrom(i + 1, n)
  }

  function Combinations(n: nat): seq<(nat, nat)>
  {
    CombinationsFrom(0, n)
  }

  /** Every listed pair names two distinct moons, the first before the second. */
  predicate ValidPairs(ps: seq<(nat, nat)>, n: nat)
  {
    forall t :: 0 <= t < |ps| ==> ps[t].0 < ps[t].1 < n
  }

  /** Strict lexicographic order on index pairs. */
  predicate LexLess(p: (nat, nat), q: (nat, nat))
  {
    p.0 < q.0 || (p.0 == q.0 && p.1 < q.1)
  }

  lemma {:induction false} RowFacts(i: nat, j: nat, n: nat)
    ensures |Row(i, j, n)| == if j <= n then n - j else 0
    ensures forall t :: 0 <= t < |Row(i, j, n)| ==> Row(i, j, n)[t] == (i, j + t)
    decreases n - j
  {
    if j < n {
      RowFacts(i, j + 1, n);
    }
  }

  lemma {:induction false} CombinationsFromValid(i: nat, n: nat)
    ensures ValidPairs(CombinationsFrom(i, n), n)
    ensures forall t :: 0 <= t < |CombinationsFrom(i, n)| ==> i <= CombinationsFrom(i, n)[t].0
    decreases n - i
  {
    if i < n {
      var row, rest := Row(i, i + 1, n), CombinationsFrom(i + 1, n);
      RowFacts(i, i + 1, n);
      CombinationsFromValid(i + 1, n);
      var all := row + rest;
      assert CombinationsFrom(i, n) == all;
      forall t | 0 <= t < |all|
        ensures all[t].0 < all[t].1 < n && i <= all[t].0
      {
        if t >= |row| { assert all[t] == rest[t - |row|]; }
      }
    }
  }

  lemma {:induction false} CombinationsFromOrdered(i: nat, n: nat)
    ensures forall p, q :: 0 <= p < q < |CombinationsFrom(i, n)| ==>
              LexLess(CombinationsFrom(i, n)[p], CombinationsFrom(i, n)[q])
    decreases n - i
  {
    if i < n {
      var row, rest := Row(i, i + 1, n), CombinationsFrom(i + 1, n);
      RowFacts(i, i + 1, n);
      CombinationsFromValid(i + 1, n);
      CombinationsFromOrdered(i + 1, n);
      var all := row + rest;
      assert CombinationsFrom(i, n) == all;
      forall p, q | 0 <= p < q < |all|
        ensures LexLess(all[p], all[q])
      {
        if p >= |row| {
          assert all[p] == rest[p - |row|] && all[q] == rest[q - |row|];
        } else if q >= |row| {
          assert all[q] == rest[q - |row|];
        }
      }
    }
  }

  lemma {:induction false} CombinationsFromComplete(i: nat, n: nat)
    ensures forall a: nat, b: nat :: i <= a < b < n ==> (a, b) in CombinationsFrom(i, n)
    decreases n - i
  {
    if i < n {
      var row, rest := Row(i, i + 1, n), CombinationsFrom(i + 1, n);
      RowFacts(i, i + 1, n);
      CombinationsFromComplete(i + 1, n);
      var all := row + rest;
      assert CombinationsFrom(i, n) == all;
      forall a: nat, b: nat | i <= a < b < n
        ensures (a, b) in all
      {
        if a == i {
          assert all[b - i - 1] == (a, b);
        } else {
          assert (a, b) in rest;
        }
      }
    }
  }

  lemma {:induction false} CombinationsFromCount(i: nat, n: nat)
    ensures 2 * |CombinationsFrom(i, n)| == if i <= n then (n - i) * (n - i - 1) else 0
    decreases n - i
  {
    if i < n {
      RowFacts(i, i + 1, n);
      CombinationsFromCount(i + 1, n);
      var m := n - i;
      assert 2 * |CombinationsFrom(i + 1, n)| == (m - 1) * (m - 2);
      assert |CombinationsFrom(i, n)| == (m - 1) + |CombinationsFrom(i + 1, n)|;
      assert (m - 1) * m == 2 * (m - 1) + (m - 1) * (m - 2);
    }
  }

  /** `combinations(moons, 2)` lists every unordered pair of distinct moons
      exactly once, in itertools order: strictly increasing lexicographically,
      hence without repetition, and n*(n-1)/2 of them. */
  lemma CombinationsCorrect(n: nat)
    ensures ValidPairs(Combinations(n), n)
    ensures forall a: nat, b: nat :: (a, b) in Combinations(n) <==> a < b < n
    ensures forall p, q :: 0 <= p < q < |Combinations(n)| ==>
              LexLess(Combinations(n)[p], Combinations(n)[q])
    ensures forall p, q :: 0 <= p < q < |Combinations(n)| ==>
              Combinations(n)[p] != Combinations(n)[q]
    ensures 2 * |Combinations(n)| == n * (n - 1)
  {
    CombinationsFromValid(0, n);
    CombinationsFromOrdered(0, n);
    CombinationsFromComplete(0, n);
    CombinationsFromCount(0, n);
    var cs := Combinations(n);
    forall a: nat, b: nat | (a, b) in cs
      ensures a < b < n
    {
      var t :| 0 <= t < |cs| && cs[t] == (a, b);
    }
    forall p, q | 0 <= p < q < |cs|
      ensures cs[p] != cs[q]
    {
      assert LexLess(cs[p], cs[q]);
    }
  }

  // ---------------------------------------------------------------------------
  // Gravity, as written: a left fold of one pair update over the pairs.

  /** One iteration of the loop in `apply_gravity`: the first moon's velocity
      loses the sign of the position difference, the second's gains it. */
  function PairStep(ms: seq<Moon>, i: nat, j: nat): (r: seq<Moon>)
    requires i < j < |ms|
    ensures |r| == |ms|
    ensures forall k :: 0 <= k < |ms| ==> r[k].pos == ms[k].pos
  {
    var s := Sign(Sub(ms[i].pos, ms[j].pos));
    ms[i := Moon(ms[i].pos, Sub(ms[i].vel, s))][j := Moon(ms[j].pos, Add(ms[j].vel, s))]
  }

  function ApplyPairs(ms: seq<Moon>, ps: seq<(nat, nat)>): (r: seq<Moon>)
    requires ValidPairs(ps, |ms|)
    ensures |r| == |ms|
    ensures forall k :: 0 <= k < |ms| ==> r[k].pos == ms[k].pos
    decreases |ps|
  {
    if ps == [] then ms
    else ApplyPairs(PairStep(ms, ps[0].0, ps[0].1), ps[1..])
  }

  /** `System.apply_gravity`: only velocities change; the moons, their order,
      their positions and the step counter are kept. */
  function ApplyGravity(sys: System): (r: System)
    ensures |r.moons| == |sys.moons|
    ensures r.step == sys.step
    ensures forall k :: 0 <= k < |sys.moons| ==> r.moons[k].pos == sys.moons[k].pos
  {
    CombinationsCorrect(|sys.moons|);
    System(ApplyPairs(sys.moons, Combinations(|sys.moons|)), sys.step)
  }

  // ---------------------------------------------------------------------------
  // Momentum.

  /** The sum of all velocity vectors. */
  function SumVel(ms: seq<Moon>): Vec3
  {
    if ms == [] then Zero else Add(ms[0].vel, SumVel(ms[1..]))
  }

  lemma {:induction false} SumVelUpdate(ms: seq<Moon>, i: nat, m: Moon)
    requires i < |ms|
    ensures SumVel(ms[i := m]) == Add(Sub(SumVel(ms), ms[i].vel), m.vel)
  {
    if i > 0 {
      assert ms[i := m][1..] == ms[1..][i - 1 := m];
      SumVelUpdate(ms[1..], i - 1, m);
    }
  }

  lemma {:induction false} ApplyPairsConservesMomentum(ms: seq<Moon>, ps: seq<(nat, nat)>)
    requires ValidPairs(ps, |ms|)
    ensures SumVel(ApplyPairs(ms, ps)) == SumVel(ms)
    decreases |ps|
  {
    if ps != [] {
      var i, j := ps[0].0, ps[0].1;
      var s := Sign(Sub(ms[i].pos, ms[j].pos));
      var ms1 := ms[i := Moon(ms[i].pos, Sub(ms[i].vel, s))];
      SumVelUpdate(ms, i, Moon(ms[i].pos, Sub(ms[i].vel, s)));
      SumVelUpdate(ms1, j, Moon(ms[j].pos, Add(ms[j].vel, s)));
      assert SumVel(PairStep(ms, i, j)) == SumVel(ms);
      ApplyPairsConservesMomentum(PairStep(ms, i, j), ps[1..]);
    }
  }

  /** Gravity conserves momentum: each pair's two updates cancel, so the sum of
      all velocities is unchanged on every axis. */
  lemma GravityConservesMomentum(sys: System)
    ensures SumVel(ApplyGravity(sys).moons) == SumVel(sys.moons)
  {
    CombinationsCorrect(|sys.moons|);
    ApplyPairsConservesMomentum(sys.moons, Combinations(|sys.moons|));
  }

  /** With a single moon there is no pair, so gravity changes nothing. */
  lemma GravitySingleMoon(sys: System)
    requires |sys.moons| == 1
    ensures ApplyGravity(sys) == sys
  {
    assert Row(0, 1, 1) == [];
    assert Combinations(1) == [];
  }

  // ---------------------------------------------------------------------------
  // Gravity in closed form: every moon is pulled by the sign of its offset to
  // every moon, which is what the pairwise loop amounts to. The proof works one
  // axis at a time, since every update is componentwise.

  /** The coordinates of all moons' positions on axis `a`. */
  function AxisPositions(ms: seq<Moon>, a: Axis): (xs: seq<int>)
    ensures |xs| == |ms|
    ensures forall k :: 0 <= k < |ms| ==> xs[k] == Comp(ms[k].pos, a)
  {
    seq(|ms|, k requires 0 <= k < |ms| => Comp(ms[k].pos, a))
  }

  /** The sum over j in [lo, hi) of sign(pos_j - p), for the moons `ms`. */
  function SignSum(ms: seq<Moon>, lo: nat, hi: nat, p: Vec3): Vec3
    requires lo <= hi <= |ms|
    decreases hi - lo
  {
    if lo == hi then Zero else Add(Sign(Sub(ms[lo].pos, p)), SignSum(ms, lo + 1, hi, p))
  }

  /** The pull of all the moons `ms` on a body at `p`. */
  function Pull(ms: seq<Moon>, p: Vec3): Vec3
  {
    SignSum(ms, 0, |ms|, p)
  }

  /** Reference definition of gravity: each moon's velocity gains the pull of
      all moons on its own position (the moon itself contributes sign(0) = 0). */
  function GravityRef(ms: seq<Moon>): (r: seq<Moon>)
    ensures |r| == |ms|
  {
    seq(|ms|, k requires 0 <= k < |ms| => Moon(ms[k].pos, Add(ms[k].vel, Pull(ms, ms[k].pos))))
  }

  /** One axis of `SignSum`. */
  function AxisSignSum(xs: seq<int>, lo: nat, hi: nat, p: int): int
    requires lo <= hi <= |xs|
    decreases hi - lo
  {
    if lo == hi then 0 else SignOf(xs[lo] - p) + AxisSignSum(xs, lo + 1, hi, p)
  }

  lemma {:induction false} SignSumComp(ms: seq<Moon>, lo: nat, hi: nat, p: Vec3, a: Axis)
    requires lo <= hi <= |ms|
    ensures Comp(SignSum(ms, lo, hi, p), a) == AxisSignSum(AxisPositions(ms, a), lo, hi, Comp(p, a))
    decreases hi - lo
  {
    if lo < hi {
      SignSumComp(ms, lo + 1, hi, p, a);
      var s := Sign(Sub(ms[lo].pos, p));
      AddComp(s, SignSum(ms, lo + 1, hi, p), a);
      SignComp(Sub(ms[lo].pos, p), a);
      SubComp(ms[lo].pos, p, a);
    }
  }

  lemma {:induction false} AxisSignSumSplit(xs: seq<int>, lo: nat, mid: nat, hi: nat, p: int)
    requires lo <= mid <= hi <= |xs|
    ensures AxisSignSum(xs, lo, hi, p) == AxisSignSum(xs, lo, mid, p) + AxisSignSum(xs, mid, hi, p)
    decreases mid - lo
  {
    if lo < mid {
      AxisSignSumSplit(xs, lo + 1, mid, hi, p);
    }
  }

  /** The change one pair update makes to moon k's velocity on one axis. */
  function AxisTerm(xs: seq<int>, pr: (nat, nat), k: nat): int
  {
    if pr.0 < |xs| && pr.1 < |xs| then
      var s := SignOf(xs[pr.0] - xs[pr.1]);
      if k == pr.0 then -s else if k == pr.1 then s else 0
    else 0
  }

  /** The total change a list of pair updates makes to moon k on one axis. */
  function AxisDelta(xs: seq<int>, ps: seq<(nat, nat)>, k: nat): int
    decreases |ps|
  {
    if ps == [] then 0 else AxisTerm(xs, ps[0], k) + AxisDelta(xs, ps[1..], k)
  }

  lemma PairStepAxis(ms: seq<Moon>, i: nat, j: nat, k: nat, a: Axis)
    requires i < j < |ms| && k < |ms|
    ensures AxisPositions(PairStep(ms, i, j), a) == AxisPositions(ms, a)
    ensures Comp(PairStep(ms, i, j)[k].vel, a) == Comp(ms[k].vel, a) + AxisTerm(AxisPositions(ms, a), (i, j), k)
  {
    var d := Sub(ms[i].pos, ms[j].pos);
    SignComp(d, a);
    SubComp(ms[i].pos, ms[j].pos, a);
    SubComp(ms[i].vel, Sign(d), a);
    AddComp(ms[j].vel, Sign(d), a);
  }

  lemma {:induction false} ApplyPairsAxis(ms: seq<Moon>, ps: seq<(nat, nat)>, k: nat, a: Axis)
    requires ValidPairs(ps, |ms|) && k < |ms|
    ensures Comp(ApplyPairs(ms, ps)[k].vel, a) == Comp(ms[k].vel, a) + AxisDelta(AxisPositions(ms, a), ps, k)
    decreases |ps|
  {
    if ps != [] {
      var ms1 := PairStep(ms, ps[0].0, ps[0].1);
      PairStepAxis(ms, ps[0].0, ps[0].1, k, a);
      ApplyPairsAxis(ms1, ps[1..], k, a);
    }
  }

  lemma {:induction false} AxisDeltaConcat(xs: seq<int>, p: seq<(nat, nat)>, q: seq<(nat, nat)>, k: nat)
    ensures AxisDelta(xs, p + q, k) == AxisDelta(xs, p, k) + AxisDelta(xs, q, k)
    decreases |p|
  {
    if p == [] {
      assert p + q == q;
    } else {
      assert (p + q)[0] == p[0];
      assert (p + q)[1..] == p[1..] + q;
      AxisDeltaConcat(xs, p[1..], q, k);
    }
  }

  /** The row (i, j), ..., (i, n-1) pulls moon i by the sign of every later
      moon's offset from it. */
  lemma {:induction false} RowDeltaFirst(xs: seq<int>, i: nat, j: nat, n: nat)
    requires i < j <= n <= |xs|
    ensures AxisDelta(xs, Row(i, j, n), i) == AxisSignSum(xs, j, n, xs[i])
    decreases n - j
  {
    if j < n {
      var row := Row(i, j, n);
      RowDeltaFirst(xs, i, j + 1, n);
      assert row[0] == (i, j) && row[1..] == Row(i, j + 1, n);
    }
  }

  /** The row (i, j), ..., (i, n-1) changes another moon k only when k is
      among j..n-1, and then by the sign of moon i's offset from k. */
  lemma {:induction false} RowDeltaOther(xs: seq<int>, i: nat, j: nat, n: nat, k: nat)
    requires i < j <= n <= |xs| && k < n && k != i
    ensures AxisDelta(xs, Row(i, j, n), k) == if j <= k then SignOf(xs[i] - xs[k]) else 0
    decreases n - j
  {
    if j < n {
      var row := Row(i, j, n);
      RowDeltaOther(xs, i, j + 1, n, k);
      assert row[0] == (i, j) && row[1..] == Row(i, j + 1, n);
    }
  }

  lemma {:induction false} CombinationsFromDelta(xs: seq<int>, i: nat, n: nat, k: nat)
    requires i <= n <= |xs| && k < n
    ensures AxisDelta(xs, CombinationsFrom(i, n), k) ==
              if k < i then 0 else AxisSignSum(xs, i, k, xs[k]) + AxisSignSum(xs, k + 1, n, xs[k])
    decreases n - i
  {
    if i < n {
      var row, rest := Row(i, i + 1, n), CombinationsFrom(i + 1, n);
      assert CombinationsFrom(i, n) == row + rest;
      AxisDeltaConcat(xs, row, rest, k);
      CombinationsFromDelta(xs, i + 1, n, k);
      if k == i {
        RowDeltaFirst(xs, i, i + 1, n);
      } else {
        RowDeltaOther(xs, i, i + 1, n, k);
      }
    }
  }

  /** On one axis, the pairwise loop gives moon k the sum over all moons j of
      sign(x_j - x_k). */
  lemma GravityAxis(ms: seq<Moon>, k: nat, a: Axis)
    requires k < |ms|
    ensures ValidPairs(Combinations(|ms|), |ms|)
    ensures Comp(ApplyPairs(ms, Combinations(|ms|))[k].vel, a)
              == Comp(ms[k].vel, a) + AxisSignSum(AxisPositions(ms, a), 0, |ms|, Comp(ms[k].pos, a))
  {
    var n := |ms|;
    var xs := AxisPositions(ms, a);
    CombinationsCorrect(n);
    ApplyPairsAxis(ms, Combinations(n), k, a);
    CombinationsFromDelta(xs, 0, n, k);
    AxisSignSumSplit(xs, 0, k, n, xs[k]);
  }

  lemma GravityAxisRef(ms: seq<Moon>, k: nat, a: Axis)
    requires k < |ms|
    ensures ValidPairs(Combinations(|ms|), |ms|)
    ensures Comp(ApplyPairs(ms, Combinations(|ms|))[k].vel, a)
              == Comp(Add(ms[k].vel, Pull(ms, ms[k].pos)), a)
  {
    GravityAxis(ms, k, a);
    AddComp(ms[k].vel, Pull(ms, ms[k].pos), a);
    SignSumComp(ms, 0, |ms|, ms[k].pos, a);
  }

  lemma GravityMoon(ms: seq<Moon>, k: nat)
    requires k < |ms|
    ensures ValidPairs(Combinations(|ms|), |ms|)
    ensures ApplyPairs(ms, Combinations(|ms|))[k].vel == Add(ms[k].vel, Pull(ms, ms[k].pos))
  {
    GravityAxisRef(ms, k, 0);
    GravityAxisRef(ms, k, 1);
    GravityAxisRef(ms, k, 2);
    CompExtensional(ApplyPairs(ms, Combinations(|ms|))[k].vel, Add(ms[k].vel, Pull(ms, ms[k].pos)));
  }

  /** The pairwise loop of `apply_gravity` agrees with the closed form: moon k
      gains the sum over all moons j of sign(pos_j - pos_k). */
  lemma GravityMatchesReference(sys: System)
    ensures ApplyGravity(sys).moons == GravityRef(sys.moons)
  {
    var ms := sys.moons;
    forall k | 0 <= k < |ms|
      ensures ApplyGravity(sys).moons[k] == GravityRef(ms)[k]
    {
      GravityMoon(ms, k);
    }
  }

  // ---------------------------------------------------------------------------
  // Tick, the full step, energy and the axis-decomposed state.

  /** `System.tick`: the step counter rises by one and every moon moves by its
      velocity; velocities are kept, so each old position is recoverable. */
  function Tick(sys: System): (r: System)
    ensures r.step == sys.step + 1
    ensures |r.moons| == |sys.moons|
    ensures forall k :: 0 <= k < |sys.moons| ==>
              r.moons[k].vel == sys.moons[k].vel
              && r.moons[k].pos == Add(sys.moons[k].pos, sys.moons[k].vel)
              && Sub(r.moons[k].pos, r.moons[k].vel) == sys.moons[k].pos
  {
    System(seq(|sys.moons|, k requires 0 <= k < |sys.moons| => Move(sys.moons[k])), sys.step + 1)
  }

  /** One simulation step: `apply_gravity` followed by `tick`. */
  function Advance(sys: System): (r: System)
    ensures r.step == sys.step + 1
    ensures |r.moons| == |sys.moons|
  {
    Tick(ApplyGravity(sys))
  }

  /** The system after `t` steps. */
  function Run(sys: System, t: nat): (r: System)
    ensures r.step == sys.step + t
    ensures |r.moons| == |sys.moons|
  {
    if t == 0 then sys else Advance(Run(sys, t - 1))
  }

  lemma {:induction false} SumVelOfVelocities(a: seq<Moon>, b: seq<Moon>)
    requires |a| == |b| && forall k :: 0 <= k < |a| ==> a[k].vel == b[k].vel
    ensures SumVel(a) == SumVel(b)
    decreases |a|
  {
    if a != [] {
      SumVelOfVelocities(a[1..], b[1..]);
    }
  }

  /** Moving keeps every velocity, so a whole run keeps the total momentum. */
  lemma {:induction false} RunConservesMomentum(sys: System, t: nat)
    ensures SumVel(Run(sys, t).moons) == SumVel(sys.moons)
  {
    if t > 0 {
      var prev := Run(sys, t - 1);
      RunConservesMomentum(sys, t - 1);
      GravityConservesMomentum(prev);
      SumVelOfVelocities(Tick(ApplyGravity(prev)).moons, ApplyGravity(prev).moons);
    }
  }

  /** The sum of every moon's total energy. */
  function EnergyOf(ms: seq<Moon>): (r: int)
    ensures r >= 0
    ensures r == 0 <==> forall k :: 0 <= k < |ms| ==> Inert(ms[k])
  {
    if ms == [] then 0
    else
      var head, rest := TotalEnergy(ms[0]), EnergyOf(ms[1..]);
      AllInertSplit(ms);
      head + rest
  }

  lemma AllInertSplit(ms: seq<Moon>)
    requires ms != []
    ensures (forall k :: 0 <= k < |ms| ==> Inert(ms[k]))
            <==> Inert(ms[0]) && forall k :: 0 <= k < |ms[1..]| ==> Inert(ms[1..][k])
  {
    if Inert(ms[0]) && forall k :: 0 <= k < |ms[1..]| ==> Inert(ms[1..][k]) {
      forall k | 0 <= k < |ms|
        ensures Inert(ms[k])
      {
        if k > 0 { assert ms[k] == ms[1..][k - 1]; }
      }
    }
  }

  /** `System.energy`: never negative, and zero exactly when every moon sits
      at the origin or is at rest. */
  function Energy(sys: System): (r: int)
    ensures r >= 0
    ensures r == 0 <==> forall k :: 0 <= k < |sys.moons| ==> Inert(sys.moons[k])
  {
    EnergyOf(sys.moons)
  }

  /** A system at rest has no energy. */
  lemma EnergyAtRest(sys: System)
    requires forall k :: 0 <= k < |sys.moons| ==> sys.moons[k].vel == Zero
    ensures Energy(sys) == 0
  {
  }

  /** Energy adds up over moons: the energy of two groups of moons is the sum
      of their energies. */
  lemma {:induction false} EnergyAdditive(a: seq<Moon>, b: seq<Moon>)
    ensures EnergyOf(a + b) == EnergyOf(a) + EnergyOf(b)
  {
    if a == [] {
      assert a + b == b;
    } else {
      assert (a + b)[0] == a[0];
      assert (a + b)[1..] == a[1..] + b;
      EnergyAdditive(a[1..], b);
    }
  }

  /** A snapshot of one axis: the (position, velocity) pair of every moon on
      that axis, in moon order. */
  type Key = seq<(int, int)>

  /** One component of `System.state`. */
  function AxisState(sys: System, a: Axis): (r: Key)
    ensures |r| == |sys.moons|
    ensures forall k :: 0 <= k < |r| ==> r[k] == (Comp(sys.moons[k].pos, a), Comp(sys.moons[k].vel, a))
  {
    seq(|sys.moons|, k requires 0 <= k < |sys.moons| => (Comp(sys.moons[k].pos, a), Comp(sys.moons[k].vel, a)))
  }

  /** `System.state`: the x, y and z snapshots. */
  function State(sys: System): seq<Key>
  {
    [AxisState(sys, 0), AxisState(sys, 1), AxisState(sys, 2)]
  }

  /** The three snapshots together determine the moons exactly: two systems
      have equal states if and only if they hold the same moons. */
  lemma StateDeterminesMoons(s1: System, s2: System)
    ensures State(s1) == State(s2) <==> s1.moons == s2.moons
  {
    if State(s1) == State(s2) {
      var x1, x2 := AxisState(s1, 0), AxisState(s2, 0);
      assert |x1| == |x2|;
      forall k | 0 <= k < |s1.moons|
        ensures s1.moons[k] == s2.moons[k]
      {
        var m1, m2 := s1.moons[k], s2.moons[k];
        assert AxisState(s1, 1)[k] == AxisState(s2, 1)[k];
        assert AxisState(s1, 2)[k] == AxisState(s2, 2)[k];
        assert x1[k] == x2[k];
        CompExtensional(m1.pos, m2.pos);
        CompExtensional(m1.vel, m2.vel);
      }
    }
  }
}

=== FILE: text.dfy ===
/** The text form of a vector: `Vector3.__str__` and `parse_vec`, together
    with the Python string operations `parse_vec` is built from. */
module Text {
  import opened Wrappers
  import opened Vectors
  import opened Moons

  // ---------------------------------------------------------------------------
  // Integers.

  predicate IsDigit(c: char)
  {
    '0' <= c <= '9'
  }

  predicate AllDigits(s: string)
  {
    forall i :: 0 <= i < |s| ==> IsDigit(s[i])
  }

  function DigitChar(d: nat): (c: char)
    requires d < 10
    ensures IsDigit(c) && c as int - '0' as int == d
  {
    ('0' as int + d) as char
  }

  /** The decimal digits of `n`, most significant first, without leading
      zeros. */
  function NatToString(n: nat): (s: string)
    ensures |s| > 0 && AllDigits(s)
    decreases n
  {
    if n < 10 then [DigitChar(n)] else NatToString(n / 10) + [DigitChar(n % 10)]
  }

  /** `str(i)` for an integer: a minus sign for negative numbers, then the
      digits of the magnitude. */
  function IntToString(i: int): (s: string)
    ensures |s| > 0
    ensures forall k :: 0 <= k < |s| ==> IsDigit(s[k]) || s[k] == '-'
  {
    if i < 0 then "-" + NatToString(-i) else NatToString(i)
  }

  /** The value of a string of decimal digits (leading zeros allowed). */
  function DigitsValue(s: string): nat
    requires AllDigits(s)
    decreases |s|
  {
    if |s| == 0 then 0 else DigitsValue(s[..|s| - 1]) * 10 + (s[|s| - 1] as int - '0' as int)
  }

  /** An optional sign followed by at least one decimal digit. */
  predicate IntLiteral(s: string)
  {
    (|s| > 0 && AllDigits(s)) || (|s| > 1 && (s[0] == '-' || s[0] == '+') && AllDigits(s[1..]))
  }

  /** `int(s)` on an optional `+` or `-` sign followed by at least one decimal
      digit; anything else is a parse error. */
  function ParseInt(s: string): (r: Option<int>)
    ensures r.Some? <==> IntLiteral(s)
    ensures r.Some? && r.value < 0 ==> s[0] == '-'
  {
    if |s| > 0 && (s[0] == '-' || s[0] == '+') then
      var body := s[1..];
      if |body| > 0 && AllDigits(body) then
        var magnitude: int := DigitsValue(body);
        Some(if s[0] == '-' then -magnitude else magnitude)
      else None
    else if |s| > 0 && AllDigits(s) then Some(DigitsValue(s))
    else None
  }

  lemma {:induction false} NatToStringValue(n: nat)
    ensures DigitsValue(NatToString(n)) == n
    decreases n
  {
    var s := NatToString(n);
    if n >= 10 {
      NatToStringValue(n / 10);
      assert s[..|s| - 1] == NatToString(n / 10);
    }
  }

  /** Printing an integer and parsing it back gives the same integer. */
  lemma IntRoundTrip(i: int)
    ensures ParseInt(IntToString(i)) == Some(i)
  {
    if i < 0 {
      NatToStringValue(-i);
      assert IntToString(i)[1..] == NatToString(-i);
    } else {
      NatToStringValue(i);
    }
  }

  /** A leading zero does not change the value of a digit string. */
  lemma {:induction false} DigitsValueLeadingZero(d: string)
    requires AllDigits(d)
    ensures DigitsValue("0" + d) == DigitsValue(d)
    decreases |d|
  {
    if |d| > 0 {
      var s := "0" + d;
      assert s[..|s| - 1] == "0" + d[..|d| - 1];
      assert s[|s| - 1] == d[|d| - 1];
      DigitsValueLeadingZero(d[..|d| - 1]);
    }
  }

  /** A `+` sign does not change the value read. */
  lemma ParseIntPlus(d: string)
    requires |d| > 0 && AllDigits(d)
    ensures ParseInt("+" + d) == ParseInt(d)
  {
    assert ("+" + d)[1..] == d;
  }

  /** A `-` sign negates the value read (so `-0` reads as 0). */
  lemma ParseIntMinus(d: string)
    requires |d| > 0 && AllDigits(d)
    ensures ParseInt(d).Some? && ParseInt("-" + d) == Some(-ParseInt(d).value)
  {
    assert ("-" + d)[1..] == d;
  }

  /** A leading zero does not change the value read. */
  lemma ParseIntLeadingZero(d: string)
    requires |d| > 0 && AllDigits(d)
    ensures ParseInt("0" + d) == ParseInt(d)
  {
    DigitsValueLeadingZero(d);
    assert AllDigits("0" + d);
  }

  // ---------------------------------------------------------------------------
  // `str.replace(c, "")`, `str.replace(pat, "")` and `str.split(sep)`.

  /** Every occurrence of the character `c` removed. */
  function RemoveChar(s: string, c: char): (r: string)
    ensures c !in r
    ensures |r| <= |s|
    decreases |s|
  {
    if s == [] then [] else (if s[0] == c then [] else [s[0]]) + RemoveChar(s[1..], c)
  }

  lemma {:induction false} RemoveCharConcat(a: string, b: string, c: char)
    ensures RemoveChar(a + b, c) == RemoveChar(a, c) + RemoveChar(b, c)
    decreases |a|
  {
    if a == [] {
      assert a + b == b;
    } else {
      var h: string := if a[0] == c then [] else [a[0]];
      assert (a + b)[0] == a[0] && (a + b)[1..] == a[1..] + b;
      assert RemoveChar(a + b, c) == h + RemoveChar(a[1..] + b, c);
      assert RemoveChar(a, c) == h + RemoveChar(a[1..], c);
      RemoveCharConcat(a[1..], b, c);
      assert h + (RemoveChar(a[1..], c) + RemoveChar(b, c)) == (h + RemoveChar(a[1..], c)) + RemoveChar(b, c);
    }
  }

  /** Every character other than `c` occurs as often after the removal as
      before; with `RemoveCharConcat` this fixes the result. */
  lemma {:induction false} RemoveCharKeeps(s: string, c: char)
    ensures forall d :: d != c ==> multiset(RemoveChar(s, c))[d] == multiset(s)[d]
    decreases |s|
  {
    if s != [] {
      var h: string := if s[0] == c then [] else [s[0]];
      assert RemoveChar(s, c) == h + RemoveChar(s[1..], c);
      assert s == [s[0]] + s[1..];
      assert multiset(s) == multiset([s[0]]) + multiset(s[1..]);
      assert multiset(RemoveChar(s, c)) == multiset(h) + multiset(RemoveChar(s[1..], c));
      RemoveCharKeeps(s[1..], c);
    }
  }

  lemma {:induction false} RemoveCharAbsent(s: string, c: char)
    requires c !in s
    ensures RemoveChar(s, c) == s
    decreases |s|
  {
    if s != [] {
      assert c !in s[1..];
      RemoveCharAbsent(s[1..], c);
    }
  }

  /** Every occurrence of the non-empty `pat` deleted, scanning left to right
      without overlaps, as Python's `replace` does. */
  function DeleteAll(s: string, pat: string): string
    requires |pat| > 0
    decreases |s|
  {
    if |pat| <= |s| && s[..|pat|] == pat then DeleteAll(s[|pat|..], pat)
    else if s == [] then []
    else [s[0]] + DeleteAll(s[1..], pat)
  }

  lemma {:induction false} DeleteAllAbsent(s: string, pat: string)
    requires |pat| > 0 && pat[0] !in s
    ensures DeleteAll(s, pat) == s
    decreases |s|
  {
    if s != [] {
      assert pat[0] !in s[1..];
      DeleteAllAbsent(s[1..], pat);
    }
  }

  /** `s.split(sep)`: the pieces between separators, empty ones included. */
  function Split(s: string, sep: char): (r: seq<string>)
    ensures |r| > 0
    decreases |s|
  {
    if s == [] then [""]
    else
      var rest := Split(s[1..], sep);
      if s[0] == sep then [""] + rest else [[s[0]] + rest[0]] + rest[1..]
  }

  /** Joining pieces with `sep` in between: the inverse of `Split`. */
  function Join(parts: seq<string>, sep: char): string
    requires |parts| > 0
    decreases |parts|
  {
    if |parts| == 1 then parts[0] else parts[0] + [sep] + Join(parts[1..], sep)
  }

  /** `Split` cuts at every separator and loses nothing: no piece holds the
      separator, and joining the pieces restores the string. */
  lemma {:induction false} SplitJoin(s: string, sep: char)
    ensures Join(Split(s, sep), sep) == s
    ensures forall i :: 0 <= i < |Split(s, sep)| ==> sep !in Split(s, sep)[i]
    decreases |s|
  {
    if s != [] {
      SplitJoin(s[1..], sep);
      var rest := Split(s[1..], sep);
      if s[0] == sep {
        assert ([""] + rest)[1..] == rest;
      } else {
        var r := [[s[0]] + rest[0]] + rest[1..];
        if |rest| > 1 {
          assert r[1..] == rest[1..];
          assert Join(rest, sep) == rest[0] + [sep] + Join(rest[1..], sep);
        }
        forall i | 0 <= i < |r|
          ensures sep !in r[i]
        {
          if i > 0 { assert r[i] == rest[i]; }
        }
      }
    }
  }

  lemma {:induction false} SplitAbsent(a: string, sep: char)
    requires sep !in a
    ensures Split(a, sep) == [a]
    decreases |a|
  {
    if a != [] {
      assert sep !in a[1..];
      SplitAbsent(a[1..], sep);
      assert [a[0]] + a[1..] == a;
    }
  }

  lemma {:induction false} SplitFirst(a: string, b: string, sep: char)
    requires sep !in a
    ensures Split(a + [sep] + b, sep) == [a] + Split(b, sep)
    decreases |a|
  {
    var s := a + [sep] + b;
    if a == [] {
      assert s[1..] == b;
    } else {
      assert s[0] == a[0] && s[1..] == a[1..] + [sep] + b;
      assert sep !in a[1..];
      SplitFirst(a[1..], b, sep);
      assert [a[0]] + a[1..] == a;
    }
  }

  // ---------------------------------------------------------------------------
  // Vectors.

  /** `Vector3.__str__`: `<x=I, y=I, z=I>`. */
  function Show(v: Vec3): string
  {
    "<x=" + IntToString(v.x) + ", y=" + IntToString(v.y) + ", z=" + IntToString(v.z) + ">"
  }

  /** The spaces and angle brackets `parse_vec` strips before splitting. */
  function Strip(s: string): string
  {
    RemoveChar(RemoveChar(RemoveChar(s, '<'), '>'), ' ')
  }

  /** `parse_vec`: strip `<`, `>` and spaces, split on commas, delete the
      `x=`, `y=`, `z=` labels from the first three pieces and parse them.
      Fewer than three pieces (an index error in the source) or a piece that
      is not an integer is a parse error; pieces after the third are ignored. */
  function ParseVec(s: string): Option<Vec3>
  {
    var parts := Split(Strip(s), ',');
    if |parts| < 3 then None
    else
      var x :- ParseInt(DeleteAll(parts[0], "x="));
      var y :- ParseInt(DeleteAll(parts[1], "y="));
      var z :- ParseInt(DeleteAll(parts[2], "z="));
      Some(Vec3(x, y, z))
  }

  lemma StripConcat(a: string, b: string)
    ensures Strip(a + b) == Strip(a) + Strip(b)
  {
    RemoveCharConcat(a, b, '<');
    RemoveCharConcat(RemoveChar(a, '<'), RemoveChar(b, '<'), '>');
    RemoveCharConcat(RemoveChar(RemoveChar(a, '<'), '>'), RemoveChar(RemoveChar(b, '<'), '>'), ' ');
  }

  lemma StripNumber(i: int)
    ensures Strip(IntToString(i)) == IntToString(i)
  {
    var s := IntToString(i);
    assert '<' !in s && '>' !in s && ' ' !in s by {
      forall k | 0 <= k < |s| ensures s[k] != '<' && s[k] != '>' && s[k] != ' ' {
        assert IsDigit(s[k]) || s[k] == '-';
      }
    }
    StripAbsent(s);
  }

  lemma NumberHasNo(i: int, c: char)
    requires !IsDigit(c) && c != '-'
    ensures c !in IntToString(i)
  {
    var s := IntToString(i);
    forall k | 0 <= k < |s| ensures s[k] != c {
      assert IsDigit(s[k]) || s[k] == '-';
    }
  }

  /** The labelled piece `tag + str(i)` parses back to `i`. */
  lemma LabelledNumber(tag: string, i: int)
    requires |tag| > 0 && !IsDigit(tag[0]) && tag[0] != '-'
    ensures ParseInt(DeleteAll(tag + IntToString(i), tag)) == Some(i)
  {
    var s := tag + IntToString(i);
    assert s[..|tag|] == tag && s[|tag|..] == IntToString(i);
    NumberHasNo(i, tag[0]);
    DeleteAllAbsent(IntToString(i), tag);
    IntRoundTrip(i);
  }

  /** What is left of `str(v)` once the brackets and spaces are stripped:
      the three labelled numbers joined by commas. */
  lemma StripShow(v: Vec3)
    ensures Strip(Show(v)) == "x=" + IntToString(v.x) + ",y=" + IntToString(v.y) + ",z=" + IntToString(v.z)
  {
    var X, Y, Z := IntToString(v.x), IntToString(v.y), IntToString(v.z);
    StripConcat("<x=" + X + ", y=" + Y + ", z=" + Z, ">");
    StripConcat("<x=" + X + ", y=" + Y + ", z=", Z);
    StripConcat("<x=" + X + ", y=" + Y, ", z=");
    StripConcat("<x=" + X + ", y=", Y);
    StripConcat("<x=" + X, ", y=");
    StripConcat("<x=", X);
    StripNumber(v.x);
    StripNumber(v.y);
    StripNumber(v.z);
    StripOpen();
    StripSeparator('y');
    StripSeparator('z');
    StripClose();
  }

  lemma StripAbsent(s: string)
    requires '<' !in s && '>' !in s && ' ' !in s
    ensures Strip(s) == s
  {
    RemoveCharAbsent(s, '<');
    RemoveCharAbsent(s, '>');
    RemoveCharAbsent(s, ' ');
  }

  lemma StripDropped(c: char)
    requires c == '<' || c == '>' || c == ' '
    ensures Strip([c]) == []
  {
    assert [c][1..] == [];
  }

  /** Stripping `<x=` leaves `x=`. */
  lemma StripOpen()
    ensures Strip("<x=") == "x="
  {
    StripConcat("<", "x=");
    StripDropped('<');
    StripAbsent("x=");
  }

  lemma StripComma()
    ensures Strip([',', ' ']) == [',']
  {
    assert [',', ' '] == [','] + [' '];
    StripConcat([','], [' ']);
    StripAbsent([',']);
    StripDropped(' ');
  }

  /** Stripping `, y=` (or `, z=`) leaves `,y=` (or `,z=`). */
  lemma StripSeparator(c: char)
    requires c == 'y' || c == 'z'
    ensures Strip([',', ' ', c, '=']) == [',', c, '=']
  {
    assert [',', ' ', c, '='] == [',', ' '] + [c, '='];
    StripConcat([',', ' '], [c, '=']);
    StripComma();
    StripAbsent([c, '=']);
  }

  lemma StripClose()
    ensures Strip(">") == ""
  {
    StripDropped('>');
  }

  /** Splitting the stripped text gives exactly the three labelled numbers. */
  lemma SplitShow(v: Vec3)
    ensures Split(Strip(Show(v)), ',') ==
              ["x=" + IntToString(v.x), "y=" + IntToString(v.y), "z=" + IntToString(v.z)]
  {
    var X, Y, Z := IntToString(v.x), IntToString(v.y), IntToString(v.z);
    StripShow(v);
    assert "x=" + X + ",y=" + Y + ",z=" + Z == ("x=" + X) + [','] + (("y=" + Y) + [','] + ("z=" + Z));
    NumberHasNo(v.x, ',');
    NumberHasNo(v.y, ',');
    NumberHasNo(v.z, ',');
    assert ',' !in "x=" + X && ',' !in "y=" + Y && ',' !in "z=" + Z;
    SplitFirst("x=" + X, ("y=" + Y) + [','] + ("z=" + Z), ',');
    SplitFirst("y=" + Y, "z=" + Z, ',');
    SplitAbsent("z=" + Z, ',');
  }

  /** The text form round-trips: `parse_vec(str(v)) == v` for every integer
      triple. */
  lemma ParseShow(v: Vec3)
    ensures ParseVec(Show(v)) == Some(v)
  {
    SplitShow(v);
    LabelledNumber("x=", v.x);
    LabelledNumber("y=", v.y);
    LabelledNumber("z=", v.z);
  }

  /** Moons at rest at the parsed positions; one failed parse fails the
      whole input. */
  function Collect(parsed: seq<Option<Vec3>>): (r: Option<seq<Moon>>)
    ensures r.Some? <==> forall k :: 0 <= k < |parsed| ==> parsed[k].Some?
    ensures r.Some? ==> |r.value| == |parsed|
    ensures r.Some? ==> forall k :: 0 <= k < |parsed| ==> r.value[k] == Moon(parsed[k].value, Zero)
    decreases |parsed|
  {
    if parsed == [] then Some([])
    else
      var rest := Collect(parsed[1..]);
      if parsed[0].None? || rest.None? then None
      else Some([Moon(parsed[0].value, Zero)] + rest.value)
  }

  /** `[Moon(parse_vec(line)) for line in lines]`, failing as a whole when one
      line is malformed. */
  function ParseMoons(lines: seq<string>): (r: Option<seq<Moon>>)
    ensures r.Some? <==> forall k :: 0 <= k < |lines| ==> ParseVec(lines[k]).Some?
    ensures r.Some? ==> |r.value| == |lines|
    ensures r.Some? ==> forall k :: 0 <= k < |lines| ==>
              r.value[k] == Moon(ParseVec(lines[k]).value, Zero)
  {
    var parsed := seq(|lines|, k requires 0 <= k < |lines| => ParseVec(lines[k]));
    assert forall k :: 0 <= k < |lines| ==> parsed[k] == ParseVec(lines[k]);
    Collect(parsed)
  }
}

=== FILE: vectors.dfy ===
/** Integer triples: the `Vector3` value type of solve_12.py. */
module Vectors {

  datatype Vec3 = Vec3(x: int, y: int, z: int)

  const Zero := Vec3(0, 0, 0)

  /** The three coordinate axes, in the order x, y, z. */
  type Axis = a: nat | a < 3

  /** The component of `v` on axis `a`. */
  function Comp(v: Vec3, a: Axis): int
  {
    if a == 0 then v.x else if a == 1 then v.y else v.z
  }

  lemma CompExtensional(u: Vec3, v: Vec3)
    requires forall a: Axis :: Comp(u, a) == Comp(v, a)
    ensures u == v
  {
    assert Comp(u, 0) == Comp(v, 0) && Comp(u, 1) == Comp(v, 1) && Comp(u, 2) == Comp(v, 2);
  }

  function Add(a: Vec3, b: Vec3): Vec3
  {
    Vec3(a.x + b.x, a.y + b.y, a.z + b.z)
  }

  /** Componentwise difference; it undoes `Add`. */
  function Sub(a: Vec3, b: Vec3): (r: Vec3)
    ensures Add(r, b) == a
  {
    Vec3(a.x - b.x, a.y - b.y, a.z - b.z)
  }

  function Neg(v: Vec3): (r: Vec3)
    ensures Add(v, r) == Zero
  {
    Vec3(-v.x, -v.y, -v.z)
  }

  /** The three-way sign of one integer, as the lambda inside `Vector3.sign`. */
  function SignOf(t: int): int
  {
    if t < 0 then -1 else if t == 0 then 0 else 1
  }

  /** `Vector3.sign`, componentwise. */
  function Sign(v: Vec3): Vec3
  {
    Vec3(SignOf(v.x), SignOf(v.y), SignOf(v.z))
  }

  /** Every component of `Sign(v)` is -1, 0 or 1 and carries the sign of the
      matching component of `v`. (Stated as a lemma rather than on `Sign`
      itself, so that sums of many signs stay cheap to reason about.) */
  lemma SignComponents(v: Vec3, a: Axis)
    ensures Comp(Sign(v), a) == -1 || Comp(Sign(v), a) == 0 || Comp(Sign(v), a) == 1
    ensures Comp(Sign(v), a) == -1 <==> Comp(v, a) < 0
    ensures Comp(Sign(v), a) == 0 <==> Comp(v, a) == 0
    ensures Comp(Sign(v), a) == 1 <==> Comp(v, a) > 0
  {
  }

  lemma AddComp(u: Vec3, v: Vec3, a: Axis)
    ensures Comp(Add(u, v), a) == Comp(u, a) + Comp(v, a)
  {
  }

  lemma SubComp(u: Vec3, v: Vec3, a: Axis)
    ensures Comp(Sub(u, v), a) == Comp(u, a) - Comp(v, a)
  {
  }

  lemma SignComp(v: Vec3, a: Axis)
    ensures Comp(Sign(v), a) == SignOf(Comp(v, a))
  {
  }

  /** Sum of absolute components: the energy measure of a vector. */
  function AbsSum(v: Vec3): (r: int)
    ensures r >= 0
    ensures r == 0 <==> v == Zero
  {
    Abs(v.x) + Abs(v.y) + Abs(v.z)
  }

  function Abs(t: int): (r: int)
    ensures r >= 0 && (r == t || r == -t)
  {
    if t < 0 then -t else t
  }

  lemma AddSubRoundTrip(a: Vec3, b: Vec3)
    ensures Sub(Add(a, b), b) == a
  {
  }

  /** The sign of a difference flips when the operands are swapped; this is
      why a pair's two velocity updates cancel. */
  lemma SignAntisymmetric(a: Vec3, b: Vec3)
    ensures Sign(Sub(b, a)) == Neg(Sign(Sub(a, b)))
  {
  }
}

=== FILE: wrappers.dfy ===
/** Failure-compatible Option, used for the program's error paths (a malformed
    input line, an exhausted search bound, a division by zero). */
module Wrappers {

  datatype Option<+T> = None | Some(value: T) {

    predicate IsFailure() {
      None?
    }

    function PropagateFailure<U>(): Option<U>
      requires None?
    {
      None
    }

    function Extract(): T
      requires Some?
    {
      value
    }
  }
}
